=== FILE: README.md ===
# gridify-neural-style, modelled in Dafny

gridify-neural-style cuts a large image into square tiles, runs the
neural-style tool on each tile, and pastes the tiles back together into one
image. Around the calls to the external tools sits a small layer of pure
logic. It chooses the tile size and the number of columns, names the tiles
and recovers their indices, and sorts the listing of the tiles directory. It
also decides which tiles are styled, builds each tile's ordered shell
commands, runs those commands one after another, and places every tile at its
pixel offset in the final mosaic. This project models that layer and proves
its properties.

The modelled core is three source files (gridify.js, util.js and config.js). The model splits them into eight modules:

- `Text` (text.dfy) holds the decimal rendering of numbers that template
  literals produce and `parseInt(_, 10)` on a run of digits. It also holds
  `Array.prototype.join`, its inverse `String.prototype.split`, and the
  slash-joined paths.
- `Util` (util.dfy) models util.js. `runInSequence` is a left fold over an
  `Outcome = Ok | Err` type, proved equal to a reference step-by-step
  semantics. It also holds `execCommand`, `execRegardless` and `ls` over
  abstract outcomes.
- `Config` (config.dfy) models config.js: the `--file` lookup, the `~/`
  stripping and the exported configuration record.
- `TileNames` (tile_names.dfy) covers the tile file pattern, `numFromTile`
  and the numeric sort of the listing.
- `Geometry` (geometry.dfy) covers `maxTilesFor`, `tileSize`, `columns`, tile
  offsets and `positionFromTile`.
- `Commands` (commands.dfy) covers the tile selection under `--skip-nn` and
  `--fast`, the style tool's arguments and the seven commands of one tile.
- `Stage` (stage.dfy) covers the sequential style-transfer stage, built from
  `runInSequence` over per-tile promise chains.
- `Gridify` (gridify.dfy) covers `reassemble` and the whole promise chain,
  from the dimension probe to the mosaic write.

Everything the outside world decides is a parameter:

- the probed dimensions;
- the error each subprocess reports;
- the directory listing;
- the mosaic write's error;
- the command-line switches (a `Flags` record);
- the maximum tile size;
- the style image path;
- `$HOME` and the project directory.

## Model

| member | source | states |
|---|---|---|
| Text.ParseNatToString | gridify.js:55 | `parseInt(_, 10)` reads back the decimal text of every natural number that a template literal renders. |
| Text.NatToStringInjective | gridify.js:54-55 | Different tile indices render to different decimal texts. |
| Text.JoinWith | gridify.js:131-142 | `.join(' ')` of no parts is the empty string, and of one part is that part. Text.JoinWithSplit and Text.SplitJoinWith relate it to splitting. |
| Text.JoinWithSplit | gridify.js:142 | Joining the pieces of `s.split(c)` with `c` gives `s` back, for every text. |
| Text.SplitJoinWith | gridify.js:142 | When no part holds the separator, splitting the joined line gives the parts back. |
| Text.Slash | gridify.js:42-48 | `${dir}/${name}` is the directory, a slash and the name, recoverable piece by piece. |
| Util.Sequence | util.js:51-64 | The reference semantics of running steps one after another keeps the `Sequenced` contract. Under that contract, step k+1 starts only after step k resolves and receives its value. The first rejection ends the run with that rejection. An empty list resolves with the seed. |
| Util.ReduceIsSequence | util.js:59-64 | The `reduce` of `lastStep.then(startNextStep)` from a resolved promise equals the reference semantics. |
| Util.RunInSequence | util.js:59-64 | `runInSequence` keeps the `Sequenced` contract. |
| Util.SequencedIsDeterministic | util.js:59-64 | Every run that keeps the `Sequenced` contract is the reference run, so the contract fully determines `runInSequence`. |
| Util.FirstRejectionEndsRun | util.js:60-62 | If steps 0..k-1 resolve and step k rejects, the run rejects with step k's error. Exactly k+1 steps have started. |
| Util.AllResolvedRunsAll | util.js:59-64 | If every step resolves, every step starts and the run resolves. |
| Util.ExecCommand | util.js:34-44 | The command resolves if and only if the subprocess reported no error, and otherwise rejects with exactly that error. The command is echoed if and only if `quiet` is false. |
| Util.ExecRegardless | util.js:47-49 | As written, the command never rejects. A failure is logged as a warning, and the command is always echoed. |
| Util.ExecRegardlessIgnoresQuiet | gridify.js:126 | At the call site that passes `true`, `execRegardless` still echoes the command, which a quiet `execCommand` would not. |
| Util.ExecRegardlessQuiet | util.js:47-49 | Corrected best-effort run: it never rejects, logs any failure, and echoes the command if and only if it is not quiet. |
| Util.ExecRegardlessSameOutcome | util.js:47-49 | The as-written and corrected best-effort helpers settle the same way and log the same warning. They differ only in whether the command is echoed. |
| Util.Ls | util.js:14-24 | `ls` resolves with the listing exactly as read (unsorted, unfiltered) when the read reports no error. Otherwise it rejects with that error. |
| Config.FileName | config.js:16-18 | The chosen input file is never empty. |
| Config.FileNameChoice | config.js:16-18 | The first argv entry right after `--file` is chosen when it is non-empty. If that entry is empty, or no entry follows `--file`, the result is `algorithm14.png`. |
| Config.FirstEntryNeverChosen | config.js:16-17 | argv[0] has no predecessor, so it is never chosen unless it also appears later or equals the default. |
| Config.StripHomePrefixSpec | config.js:20 | Exactly one leading `~/` is removed. A string without that prefix is unchanged. |
| Config.AbsPathFromHomeRelative | config.js:20 | The result is `$HOME`, a slash, then the path with its leading `~/` stripped. |
| Config.Resolve | config.js:25 | An absolute file name stands alone. A relative one is taken below the project directory. |
| Config.InstallPathsNest | config.js:36-39 | The torch path resolves to `$HOME/torch`. The neural-style path resolves to the `neural-style` directory inside it. |
| Config.Load | config.js:22-42 | The exported fields: the input file and its absolute path; `tiles` and `output`, two distinct directories below the project root; the pattern `tiles_%d.png`; and the two install paths. |
| TileNames.TileNameSpelling | gridify.js:54 | config.js and gridify.js use the same pattern, and tile n's file is `tiles_<n>.png`. |
| TileNames.DigitRun | gridify.js:55 | `match(/\d+/)` finds nothing exactly when the name has no digit. Otherwise it finds a non-empty run of digits. |
| TileNames.DigitRunOf | gridify.js:55 | In a name made of a digit-free prefix, a run of digits and a tail that does not start with a digit, that run is what is found. |
| TileNames.NumFromTile | gridify.js:55 | `numFromTile` is `NaN` (None) exactly when the name has no digit. |
| TileNames.NumFromTileName | gridify.js:54-55 | `numFromTile(tiles_<n>.png) == n` for every natural n. |
| TileNames.TileNameInjective | gridify.js:54-55 | Different indices give different tile names. |
| TileNames.Insert | gridify.js:109 | One insertion step of the sort adds exactly the inserted element (multiset). |
| TileNames.InsertSorted | gridify.js:109 | Inserting a keyed element into a list ascending by index keeps it ascending. |
| TileNames.SortBy | gridify.js:109 | The sort is a permutation of its input. |
| TileNames.SortBySorted | gridify.js:109 | When every name carries an index, the sorted list ascends by index. |
| TileNames.SortTiles | gridify.js:109 | The sorted listing is a permutation of the listing. When every name carries an index, it ascends by that index. |
| TileNames.SmallerIndexFirst | gridify.js:109 | In the sorted listing, a tile with a smaller index comes first. |
| TileNames.TwoBeforeTen | gridify.js:109 | `tiles_2.png` comes before `tiles_10.png`, unlike a lexicographic sort. |
| TileNames.FreshCropSortsInOrder | gridify.js:103-109 | Whatever order the directory lists a fresh crop of n tiles in, the sort yields `tiles_0.png` … `tiles_<n-1>.png` in index order. |
| Geometry.RoundDiv | gridify.js:94 | `Math.round(p/q)` is the integer r with (2r-1)q <= 2p < (2r+1)q. |
| Geometry.MaxTilesFor | gridify.js:94 | `maxTilesFor(size)` rounds size/(floor(size/max)+1) and is between 1 and the maximum. |
| Geometry.TileSize | gridify.js:95-97 | The axis with the strictly larger remainder mod the maximum decides, and a tie goes to the height. The result never exceeds the maximum. |
| Geometry.CeilDiv | gridify.js:98 | `Math.ceil(size/ts)` is the c with (c-1)·ts < size <= c·ts. |
| Geometry.GridFor | gridify.js:94-98 | The tile size is the one `tileSize` picks by the larger remainder, at most the maximum. The columns span the width with less than one tile to spare. |
| Geometry.GridExample | gridify.js:94-98 | 1000×700 with a maximum of 400 gives 350-pixel tiles in 3 columns. |
| Geometry.Rows | gridify.js:103 | The crop's rows span the height with less than one tile to spare. |
| Geometry.Cell | gridify.js:61-62 | Tile i's column is below `columns`, and i = row·columns + column. |
| Geometry.Offset | gridify.js:59-64 | A tile's offset is tile-aligned on both axes, and the tile ends within the grid's width. |
| Geometry.OffsetsApart | gridify.js:59-64 | Distinct tiles sit at least a tile apart on some axis, so tiles never overlap. |
| Geometry.PixelCoveredOnce | gridify.js:59-64 | Every pixel of the image lies in exactly one tile's square, and that tile is one of those the crop produced. |
| Geometry.PositionFromTile | gridify.js:59-64 | The page geometry starts with `+`. It is `+NaN+NaN` exactly when the name carries no index. |
| Geometry.PositionOfTile | gridify.js:59-64 | The page geometry of `tiles_<n>.png` is tile n's pixel offset. |
| Commands.PresentOfSetLength | gridify.js:119-121 | `map` over an array whose length was set to n visits the first min(n, length) elements. |
| Commands.FilesToConvert | gridify.js:113-121 | The tiles selected for styling are a prefix of the sorted listing. |
| Commands.FilesToConvertChoice | gridify.js:113-121 | `--skip-nn` selects no tile, `--fast` the first min(3, n), and otherwise every tile is selected. |
| Commands.StripExtension | gridify.js:122 | The result is a prefix of the name. When something is stripped, it is a `.` followed by one or more word characters, ending the name. |
| Commands.StripExtensionOf | gridify.js:122 | A stem, a `.` and a word-character extension strip to the stem. |
| Commands.ArchiveDirOfTile | gridify.js:122 | Tile n's archive directory is `tiles/tiles_<n>`, a different path from the tile file. |
| Commands.RenderSplits | gridify.js:103-148 | Each command line (`rm`, `mv`, `cp`, `mkdir`, the crop's `convert`, and the style tool's `.join(' ')`) is its words joined by single spaces. `split(' ')` of the line gives the words back whenever no word holds a space. Whatever the paths hold, the first piece of a non-style command is its program. |
| Commands.StyleCommandRunsTh | gridify.js:131-142 | The first two pieces of the rendered style command, split at spaces, are `th` and `neural_style.lua`. |
| Commands.StyleArgsSwitches | gridify.js:131-142 | The style command has these properties: <ul><li>it starts with `th neural_style.lua`;</li><li>it names the staged tile as content image;</li><li>`-image_size` is the tile size;</li><li>`-gpu -1` appears if and only if `--no-gpu` is given;</li><li>`-num_iterations 500` appears if and only if `--half` is given, and 1500 otherwise;</li><li>`-num_iterations 5` appears if and only if `--fast` is given.</li></ul> |
| Commands.TileJob | gridify.js:121-148 | A tile's seven commands run in order: <ol><li>best-effort clear of the style tool's images;</li><li>move the tile into the style tool's directory;</li><li>style it;</li><li>copy `out.png` back over the same tile path;</li><li>remove the staged copy;</li><li>make the archive directory;</li><li>move the images there.</li></ol> Steps 2-7 run echoed under `--verbose` and quietly otherwise. |
| Stage.Perform | gridify.js:124-126 | A best-effort command (`execRegardless` as written) always resolves. Any other command resolves if and only if it reported no error, and otherwise rejects with that error. |
| Stage.StyleStage | gridify.js:113-153 | With `--skip-nn`, the stage hands on the listing untouched. Otherwise it succeeds if and only if the sequenced tiles succeed, and then hands on the full listing, not only the selection. When it fails, it rejects with the sequenced run's error. |
| Stage.JobSucceedsRunsAll | gridify.js:126-148 | When no command of a tile rejects, all seven start and the tile's chain resolves. |
| Stage.TileJobSucceeds | gridify.js:124-148 | Only a tile's first command is best effort, so its chain succeeds whenever none of the other six commands reports an error. |
| Stage.TilesRunOneAtATime | gridify.js:151 | A tile starts only after every command of the previous tile started and resolved. |
| Stage.FailureAbortsStage | gridify.js:126-151 | The first failing non-best-effort command ends the stage with its error. No later command of that tile starts, and no later tile starts. |
| Stage.CommandFailureEndsStage | gridify.js:126-153 | The first command of the stage, other than a best-effort clean-up, that reports an error ends the stage with that error. |
| Stage.StageSucceeds | gridify.js:151-153 | When no command rejects, every selected tile runs all its commands, and the stage hands on the full listing. |
| Stage.StageIgnoresUnselected | gridify.js:117-121 | The stage's outcome depends on no report of a tile outside the selection. |
| Gridify.AppendAllLays | gridify.js:75-76 | The left fold of `addTile` keeps the chain's arguments and appends three arguments per file, in file order. |
| Gridify.AddTilesPlaces | gridify.js:71-76 | File i contributes `-page`, its page geometry and its path at positions 3i..3i+2. |
| Gridify.Reassemble | gridify.js:66-82 | `reassemble` rejects with the write's error. Otherwise it resolves, having written every file at its page geometry to the output file. |
| Gridify.Pipeline | gridify.js:90-165 | The first failing step decides the error: the probe, the crop, the directory read, the style stage, then the mosaic write. When the style stage resolves and the write succeeds, the run finishes. A finished run has these properties: <ul><li>it used the grid the dimensions give;</li><li>it cropped with that tile size;</li><li>it reassembled the sorted listing, a permutation of the listing that ascends by index;</li><li>it placed every tile at its page geometry in `output/output.png`.</li></ul> |
| Gridify.StyleFailureEndsRun | gridify.js:126-165 | A failing style command is fatal to the run. The first command other than a clean-up that reports an error ends the chain with that error, and no mosaic is written. |
| Gridify.SkipIgnoresStyleReports | gridify.js:113-115 | Under `--skip-nn`, the run does not depend on anything the style tool's commands would report. |
| Gridify.QuietWorldFinishes | gridify.js:90-164 | When the probe, the crop, the listing, every non-best-effort command of the selected tiles and the write all succeed, the run finishes. Tiles that `--fast` or `--skip-nn` leaves unstyled may report anything. |
| Gridify.CropNamesPlaced | gridify.js:59-76 | For a crop's names in order, tile i's arguments are its offset and its path. |
| Gridify.FreshCropReassembles | gridify.js:103-161 | After a fresh crop of n tiles, listed in any order, the mosaic receives tile i at arguments 3i..3i+2, at tile i's own offset. |

## Left out

- The subprocesses are not modelled: the ImageMagick crop, the style tool, `rm`, `mv`, `cp` and `mkdir`. The `gm` mosaic write and the dimension probe are also out. Only their outcomes (an error or none) and the command strings built for them are modelled. Pixel content cannot be reasoned about here.
- The concurrent reset of the tiles and output directories (`Promise.all`, gridify.js:85-89) is a filesystem side effect and is not modelled.
- `process.chdir` (gridify.js:105, 152) is a filesystem side effect and is not modelled. The model assumes the working directory is the style tool's directory while the tiles are styled, which is where `mv *.png` takes its files.
- `console.log`, `log`, `console.error` and the spinner are not modelled. Neither is the final `.catch` that logs the error and leaves the process exiting normally. `Gridify.Pipeline`'s `Err` is the value that `.catch` receives.
- `exitIfHelpRequested` is not modelled, and neither is `--help`: it stops the program before any of the modelled logic runs.
- util.js does not define `hasArg`, `getDimensions`, `execQuietly`, `log` or `exitIfHelpRequested`, and config.js does not define `maxTileSize` or `styleFileAbsPath`; those sources are not part of this model. The switches are a `Flags` record, the probe is an outcome parameter, and the maximum tile size and the style image path are parameters. `execQuietly` is assumed to settle as `execCommand` does without echoing.
- `path.join` and `path.resolve` are modelled as plain `/` concatenation, with no `.`/`..` or duplicate-slash normalisation. `__dirname` and `$HOME` are parameters.
- Floating point is not modelled: `Math.round`, `Math.floor` and `Math.ceil` are exact integer arithmetic on positive operands. Numbers beyond 2^53 are outside the model.
- TileNames.SortTiles: for names with no index, the comparator returns `NaN`, and JavaScript then leaves the order up to the engine. The model uses a stable insertion sort and proves ordering only for listings in which every name carries an index. The permutation property holds for any listing.
- Commands.StyleArgsSwitches: under `--fast`, both `-num_iterations 5` and a later `-num_iterations 1500` (or 500) are passed. Which one the style tool honours is up to its argument parser, which is not part of this model.
- How `/bin/sh` splits a command line into words is not modelled: it splits on runs of blanks, drops empty fields and reads quotes. `Text.Split` is `String.prototype.split`, which keeps empty pieces. The two agree only on lines whose words are non-empty and free of blanks and shell metacharacters. The non-style commands on plain paths are such lines, though the shell then glob-expands each `*.png` into many arguments. The style line is not: with `--fast` or `--no-gpu` off it holds empty arguments, hence a double space or a trailing space.
- `Object.freeze` (config.js:42) has no counterpart: the configuration is an immutable datatype value, so it cannot change after `Config.Load` builds it.
- Behaviours of the program that the model keeps as they are:
  - The staged copy is removed before the intermediate images are archived (gridify.js:145-148).
  - The program reads no `--style` switch, so the style image path is a parameter.
  - A failure anywhere in the chain is only logged by the final `.catch` (gridify.js:165); the process does not exit with an error status.

## Findings

| source | as written | input that shows it | evidently intended | confidence | as-written member | corrected member |
|---|---|---|---|---|---|---|
| util.js:47-48 | `execRegardless` takes only the command and calls `execCommand(command)`, so the `true` that gridify.js:126 passes for quietness is dropped. | Any run without `--verbose`: each tile's `rm <style dir>/*.png` is echoed although every other command of the tile runs quietly. | Forward the quiet flag to `execCommand` and still swallow failures into a warning. | not executed | Util.ExecRegardless (exhibited by Util.ExecRegardlessIgnoresQuiet; Stage.Perform runs it as written) | Util.ExecRegardlessQuiet (Util.ExecRegardlessSameOutcome: it settles as the as-written helper does, so every stage result holds under the fix) |

=== FILE: commands.dfy ===
/**
  What gridify.js runs for each tile: which tiles go through style transfer
  under `--skip-nn`, `--fast` or neither, and the ordered commands of one
  tile (stage the tile, run the style tool, copy the result back, archive
  the intermediate images).
 */
module Commands {
  import opened Text
  import opened Util
  import opened TileNames

  /** The command-line switches gridify.js reads through `hasArg`. */
  datatype Flags = Flags(skipNN: bool, fast: bool, half: bool, noGpu: bool, verbose: bool)

  /** Tiles styled under `--fast`. */
  const FastTileCount: nat := 3

  // ---------------------------------------------------------------------------
  // Tile selection.

  /** `array.length = n`: truncates, or pads with holes (`None`). */
  function SetLength<T>(xs: seq<T>, n: nat): (r: seq<Option<T>>)
    ensures |r| == n
    ensures forall i :: 0 <= i < n ==> r[i] == (if i < |xs| then Some(xs[i]) else None)
  {
    seq(n, i requires 0 <= i < n => if i < |xs| then Some(xs[i]) else None)
  }

  /** The elements `map` and `reduce` visit: holes are skipped. */
  function Present<T>(xs: seq<Option<T>>): (r: seq<T>)
    ensures |r| <= |xs|
    decreases |xs|
  {
    if |xs| == 0 then []
    else Present(xs[..|xs| - 1]) + (match xs[|xs| - 1] case Some(v) => [v] case None => [])
  }

  lemma {:induction false} PresentOfSetLength<T>(xs: seq<T>, n: nat)
    ensures Present(SetLength(xs, n)) == xs[..if n <= |xs| then n else |xs|]
    decreases n
  {
    if n > 0 {
      var s := SetLength(xs, n);
      assert s[..n - 1] == SetLength(xs, n - 1);
      PresentOfSetLength(xs, n - 1);
      if n <= |xs| {
        assert xs[..n] == xs[..n - 1] + [xs[n - 1]];
      }
    }
  }

  function Min(a: nat, b: nat): nat {
    if a <= b then a else b
  }

  /** `filesToConvert`: the tiles that go through style transfer, always a
      prefix of the sorted listing. */
  function FilesToConvert(files: seq<string>, flags: Flags): (r: seq<string>)
    ensures |r| <= |files| && r == files[..|r|]
  {
    if flags.skipNN then []
    else if flags.fast then
      PresentOfSetLength(files, FastTileCount);
      Present(SetLength(files, FastTileCount))
    else files
  }

  /** `--skip-nn` styles no tile, `--fast` the first three (or all, when there
      are fewer), and otherwise every tile is styled. */
  lemma FilesToConvertChoice(files: seq<string>, flags: Flags)
    ensures flags.skipNN ==> FilesToConvert(files, flags) == []
    ensures !flags.skipNN && flags.fast ==> FilesToConvert(files, flags) == files[..Min(FastTileCount, |files|)]
    ensures !flags.skipNN && !flags.fast ==> FilesToConvert(files, flags) == files
  {
    PresentOfSetLength(files, FastTileCount);
  }

  // ---------------------------------------------------------------------------
  // Commands.

  /** The shell commands of the pipeline, by shape. */
  datatype Command =
    | Remove(path: string)
    | Move(src: string, dst: string)
    | Copy(src: string, dst: string)
    | MakeDir(dir: string)
    | Style(args: seq<string>)
    | Crop(input: string, tileSize: nat, output: string)

  /** The words of a command: the program, then its arguments. The command
      string is these words joined by single spaces, which is what each
      template literal of gridify.js spells out (`rm ${path}`, `mv ${src}
      ${dst}`, the crop's `convert ... ${tileSize}x${tileSize} ...`), and what
      `.join(' ')` makes of the style tool's argument list. */
  function Words(c: Command): seq<string> {
    match c
    case Remove(p) => ["rm", p]
    case Move(s, d) => ["mv", s, d]
    case Copy(s, d) => ["cp", s, d]
    case MakeDir(d) => ["mkdir", d]
    case Style(args) => args
    case Crop(i, t, o) =>
      ["convert", i, "+gravity", "-crop", NatToString(t) + "x" + NatToString(t), o]
  }

  /** The command string handed to the shell. */
  function Render(c: Command): string {
    JoinWith(Words(c), " ")
  }

  /** `split(' ')` of a command string gives back its words whenever no word
      holds a space; and whatever the paths hold, the first piece of a
      non-style command is its program. */
  lemma RenderSplits(c: Command)
    ensures |Words(c)| >= 1 && (forall k :: 0 <= k < |Words(c)| ==> ' ' !in Words(c)[k]) ==>
              Split(Render(c), ' ') == Words(c)
    ensures !c.Style? ==> Split(Render(c), ' ')[0] == Words(c)[0]
  {
    var w := Words(c);
    assert " " == [' '];
    if |w| >= 1 && (forall k :: 0 <= k < |w| ==> ' ' !in w[k]) {
      SplitJoinWith(w, ' ');
    }
    if !c.Style? {
      assert ' ' !in w[0];
      SplitPrefix(w[0], JoinWith(w[1..], [' ']), ' ');
    }
  }

  /** How a command is run: best effort (`execRegardless`), echoed
      (`execCommand`, under `--verbose`) or quietly (`execQuietly`). */
  datatype Runner = BestEffort | Echoing | Quiet

  datatype Invocation = Invocation(runner: Runner, command: Command)

  /** The directories and files the per-tile commands refer to. */
  datatype Paths = Paths(tilesDir: string, neuralStyleDir: string, styleFile: string)

  /** `tile(filename)`: a file in the tiles directory. */
  function TilePath(p: Paths, name: string): string {
    Slash(p.tilesDir, name)
  }

  /** `nsDir(filename)`: a file in the style tool's working directory. */
  function NsPath(p: Paths, name: string): string {
    Slash(p.neuralStyleDir, name)
  }

  predicate IsWordChar(c: char) {
    ('a' <= c <= 'z') || ('A' <= c <= 'Z') || ('0' <= c <= '9') || c == '_'
  }

  predicate AllWordChars(s: string) {
    forall i :: 0 <= i < |s| ==> IsWordChar(s[i])
  }

  /** Position of the last `.`, if any. */
  function LastDot(s: string): (r: Option<nat>)
    ensures r.Some? ==> r.value < |s| && s[r.value] == '.'
    ensures r.Some? ==> forall i :: r.value < i < |s| ==> s[i] != '.'
    ensures r.None? ==> forall i :: 0 <= i < |s| ==> s[i] != '.'
    decreases |s|
  {
    if |s| == 0 then None
    else if s[|s| - 1] == '.' then Some(|s| - 1)
    else LastDot(s[..|s| - 1])
  }

  /** `name.replace(/\.[\w\d]+$/, '')`: drop a trailing `.` followed by one or
      more word characters. Such a `.` can only be the last one. */
  function StripExtension(name: string): (r: string)
    ensures |r| <= |name| && r == name[..|r|]
    ensures r != name ==> name[|r|] == '.' && |name| > |r| + 1 && AllWordChars(name[|r| + 1..])
  {
    match LastDot(name)
    case None => name
    case Some(i) => if i + 1 < |name| && AllWordChars(name[i + 1..]) then name[..i] else name
  }

  /** A stem, a dot and a word-character extension: the stem is what remains. */
  lemma StripExtensionOf(stem: string, ext: string)
    requires |ext| > 0 && AllWordChars(ext)
    ensures StripExtension(stem + "." + ext) == stem
  {
    var s := stem + "." + ext;
    LastDotOf(stem, ext);
    assert s[|stem| + 1..] == ext;
    assert s[..|stem|] == stem;
  }

  lemma {:induction false} LastDotOf(stem: string, ext: string)
    requires AllWordChars(ext)
    ensures LastDot(stem + "." + ext) == Some(|stem|)
    decreases |ext|
  {
    var s := stem + "." + ext;
    if |ext| == 0 {
      assert s[|s| - 1] == '.';
    } else {
      var shorter := ext[..|ext| - 1];
      assert s[..|s| - 1] == stem + "." + shorter;
      assert s[|s| - 1] == ext[|ext| - 1];
      LastDotOf(stem, shorter);
    }
  }

  /** `tileOutputDir`: the archive directory of a tile, named after the tile
      file without its extension, inside the tiles directory. */
  function ArchiveDir(p: Paths, name: string): string {
    Slash(p.tilesDir, StripExtension(name))
  }

  /** `.png` is a dot and a word-character extension. */
  lemma PngExtension()
    ensures ".png" == "." + "png"
    ensures AllWordChars("png")
  {
  }

  /** The archive directory of tile `n` is `tiles_<n>`, next to (and distinct
      from) the tile file `tiles_<n>.png`. */
  lemma ArchiveDirOfTile(p: Paths, n: nat)
    ensures ArchiveDir(p, TileName(n)) == Slash(p.tilesDir, "tiles_" + NatToString(n))
    ensures ArchiveDir(p, TileName(n)) != TilePath(p, TileName(n))
  {
    var stem := "tiles_" + NatToString(n);
    TileNameSpelling(n);
    PngExtension();
    assert TileName(n) == stem + "." + "png";
    StripExtensionOf(stem, "png");
    assert |ArchiveDir(p, TileName(n))| < |TilePath(p, TileName(n))|;
  }

  // The fixed arguments of the style tool.
  const StyleScript: string := "th" + " " + "neural_style.lua"
  const BlendWeights: string := "-style_blend_weights 7,2"
  const OriginalColors: string := "-original_colors 1"
  const Backend: string := "-backend cudnn"
  const FastIterations: string := "-num_iterations 5"
  const HalfIterations: string := "-num_iterations 500"
  const FullIterations: string := "-num_iterations 1500"
  const NoGpu: string := "-gpu -1"

  /** The style tool's arguments, in the order gridify.js lists them; the
      optional ones are empty strings when their switch is off. */
  function StyleArgs(p: Paths, name: string, tileSize: nat, flags: Flags): (args: seq<string>)
    ensures |args| == 10
  {
    [ StyleScript,
      "-style_image " + p.styleFile + "," + NsPath(p, name),
      BlendWeights,
      "-content_image " + NsPath(p, name),
      OriginalColors,
      Backend,
      "-image_size " + NatToString(tileSize),
      if flags.fast then FastIterations else "",
      if flags.half then HalfIterations else FullIterations,
      if flags.noGpu then NoGpu else "" ]
  }

  /** The script argument spelled out. */
  lemma StyleScriptText()
    ensures StyleScript == "th neural_style.lua"
  {
  }

  /** The second character and the length of each fixed argument. */
  lemma FixedArgShapes()
    ensures StyleScript[1] == 'h' && BlendWeights[1] == 's' && OriginalColors[1] == 'o' && Backend[1] == 'b'
    ensures FastIterations[1] == 'n' && |FastIterations| == 17
    ensures HalfIterations[1] == 'n' && |HalfIterations| == 19
    ensures FullIterations[1] == 'n' && |FullIterations| == 20
    ensures NoGpu[1] == 'g' && |NoGpu| == 7
  {
  }

  /** The second character of a prefixed argument is the prefix's. */
  lemma PrefixSecondChar(prefix: string, rest: string)
    requires |prefix| >= 2
    ensures (prefix + rest)[1] == prefix[1]
  {
  }

  /** The second character of each argument, which tells the options apart. */
  lemma StyleArgsSecondChars(p: Paths, name: string, tileSize: nat, flags: Flags)
    ensures var a := StyleArgs(p, name, tileSize, flags);
      && a[0][1] == 'h' && a[1][1] == 's' && a[2][1] == 's' && a[3][1] == 'c'
      && a[4][1] == 'o' && a[5][1] == 'b' && a[6][1] == 'i'
      && (|a[7]| == 0 || (a[7][1] == 'n' && |a[7]| == 17))
      && a[8][1] == 'n' && (|a[8]| == 19 || |a[8]| == 20)
      && (|a[9]| == 0 || (a[9][1] == 'g' && |a[9]| == 7))
  {
    FixedArgShapes();
    PrefixSecondChar("-style_image ", p.styleFile + "," + NsPath(p, name));
    assert "-style_image " + p.styleFile + "," + NsPath(p, name)
        == "-style_image " + (p.styleFile + "," + NsPath(p, name));
    PrefixSecondChar("-content_image ", NsPath(p, name));
    PrefixSecondChar("-image_size ", NatToString(tileSize));
  }

  /** The style tool runs `neural_style.lua` on the staged tile, at the tile
      size; `-gpu -1` is passed exactly under `--no-gpu`, 500 iterations
      exactly under `--half` (1500 otherwise), and the extra
      `-num_iterations 5` exactly under `--fast`. */
  lemma StyleArgsSwitches(p: Paths, name: string, tileSize: nat, flags: Flags)
    ensures StyleArgs(p, name, tileSize, flags)[0] == "th neural_style.lua"
    ensures "-content_image " + NsPath(p, name) in StyleArgs(p, name, tileSize, flags)
    ensures "-image_size " + NatToString(tileSize) in StyleArgs(p, name, tileSize, flags)
    ensures "-gpu -1" in StyleArgs(p, name, tileSize, flags) <==> flags.noGpu
    ensures "-num_iterations 500" in StyleArgs(p, name, tileSize, flags) <==> flags.half
    ensures "-num_iterations 1500" in StyleArgs(p, name, tileSize, flags) <==> !flags.half
    ensures "-num_iterations 5" in StyleArgs(p, name, tileSize, flags) <==> flags.fast
  {
    var a := StyleArgs(p, name, tileSize, flags);
    StyleScriptText();
    StyleArgsSecondChars(p, name, tileSize, flags);
    FixedArgShapes();
    assert a[3] == "-content_image " + NsPath(p, name);
    assert a[6] == "-image_size " + NatToString(tileSize);
    assert NoGpu in a ==> a[9] == NoGpu;
    assert FastIterations in a ==> a[7] == FastIterations;
    assert HalfIterations in a ==> a[8] == HalfIterations;
    assert FullIterations in a ==> a[8] == FullIterations;
  }

  /** The style tool's images, and the image it writes. */
  const AllImages: string := "*.png"
  const StyledImage: string := "out.png"

  /** A line whose first part is two space-free words starts with them. */
  lemma LeadingWords(x: string, y: string, parts: seq<string>)
    requires ' ' !in x && ' ' !in y
    requires |parts| >= 2 && parts[0] == x + [' '] + y
    ensures var words := Split(JoinWith(parts, [' ']), ' ');
      |words| >= 2 && words[0] == x && words[1] == y
  {
    var rest := JoinWith(parts[1..], [' ']);
    assert JoinWith(parts, [' ']) == x + [' '] + (y + [' '] + rest);
    SplitPrefix(x, y + [' '] + rest, ' ');
    SplitPrefix(y, rest, ' ');
  }

  /** The first two space-separated pieces of the rendered style command are
      `th` and `neural_style.lua`. */
  lemma StyleCommandRunsTh(p: Paths, name: string, tileSize: nat, flags: Flags)
    ensures var words := Split(Render(Style(StyleArgs(p, name, tileSize, flags))), ' ');
      |words| >= 2 && words[0] == "th" && words[1] == "neural_style.lua"
  {
    assert " " == [' '];
    LeadingWords("th", "neural_style.lua", StyleArgs(p, name, tileSize, flags));
  }

  /** The runner of every step but the first. */
  function StepRunner(flags: Flags): Runner {
    if flags.verbose then Echoing else Quiet
  }

  /** The seven commands of one tile, in order: clear the style tool's images,
      stage the tile, style it, copy the result back over the tile, remove
      the staged copy, make the archive directory, move the images there. */
  function TileJob(p: Paths, name: string, tileSize: nat, flags: Flags): (job: seq<Invocation>)
    ensures |job| == 7
    ensures job[0] == Invocation(BestEffort, Remove(NsPath(p, AllImages)))
    ensures job[1].runner == job[2].runner == job[3].runner == StepRunner(flags)
    ensures job[4].runner == job[5].runner == job[6].runner == StepRunner(flags)
    ensures job[1].command == Move(TilePath(p, name), NsPath(p, name))
    ensures job[2].command == Style(StyleArgs(p, name, tileSize, flags))
    ensures job[3].command == Copy(NsPath(p, StyledImage), job[1].command.src)
    ensures job[4].command == Remove(job[1].command.dst)
    ensures job[5].command == MakeDir(ArchiveDir(p, name))
    ensures job[6].command == Move(AllImages, job[5].command.dir + "/")
  {
    var run := StepRunner(flags);
    var staged := NsPath(p, name);
    var archive := ArchiveDir(p, name);
    [ Invocation(BestEffort, Remove(NsPath(p, AllImages))),
      Invocation(run, Move(TilePath(p, name), staged)),
      Invocation(run, Style(StyleArgs(p, name, tileSize, flags))),
      Invocation(run, Copy(NsPath(p, StyledImage), TilePath(p, name))),
      Invocation(run, Remove(staged)),
      Invocation(run, MakeDir(archive)),
      Invocation(run, Move(AllImages, archive + "/")) ]
  }
}

=== FILE: config.dfy ===
/**
  config.js: the run configuration derived once at start-up from the command
  line, the home directory and the project directory. The configuration is an
  immutable datatype value, so it cannot change after it is built.
 */
module Config {
  import opened Text

  /** The input used when no `--file` argument names one. */
  const DefaultFile: string := "algorithm14.png"

  /** The torch install (`~/torch`) and the neural-style checkout inside it
      (`~/torch/neural-style`), relative to home. */
  const TorchPath: string := "~/" + "torch"
  const NeuralStylePath: string := TorchPath + "/" + "neural-style"

  /** Name format of the tile files the crop writes (`%d` is the tile index). */
  const TilePattern: string := "tiles_%d.png"

  datatype Config = Config(
    inputFile: string,
    inputFileAbsPath: string,
    projectRoot: string,
    tilesDir: string,
    outputDir: string,
    tilePattern: string,
    torchPath: string,
    torchAbsPath: string,
    neuralStylePath: string,
    neuralStyleAbsPath: string)

  /** `argv[idx - 1] === '--file'`; at index 0 the predecessor is `undefined`. */
  predicate FollowsFileFlag(argv: seq<string>, i: nat)
    requires i < |argv|
  {
    i >= 1 && argv[i - 1] == "--file"
  }

  /** The entries of `argv` from index `i` on that follow a `--file` entry,
      in order: `argv.filter(...)` restricted to the suffix. */
  function FileArgsFrom(argv: seq<string>, i: nat): (r: seq<string>)
    requires i <= |argv|
    ensures |r| <= |argv| - i
    decreases |argv| - i
  {
    if i == |argv| then []
    else (if FollowsFileFlag(argv, i) then [argv[i]] else []) + FileArgsFrom(argv, i + 1)
  }

  /** `argv.filter((arg, idx) => '--file' === argv[idx - 1])[0] || 'algorithm14.png'`. */
  function FileName(argv: seq<string>): (r: string)
    ensures r != ""
  {
    var matches := FileArgsFrom(argv, 0);
    if |matches| > 0 && matches[0] != "" then matches[0] else DefaultFile
  }

  /** Index `i` holds the first entry that follows a `--file` entry. */
  ghost predicate IsFirstFileArg(argv: seq<string>, i: nat) {
    && i < |argv|
    && FollowsFileFlag(argv, i)
    && forall j :: 1 <= j < i ==> !FollowsFileFlag(argv, j)
  }

  lemma {:induction false} NoFileArgsFrom(argv: seq<string>, i: nat)
    requires i <= |argv|
    requires forall j :: i <= j < |argv| ==> !FollowsFileFlag(argv, j)
    ensures FileArgsFrom(argv, i) == []
    decreases |argv| - i
  {
    if i < |argv| {
      NoFileArgsFrom(argv, i + 1);
    }
  }

  lemma {:induction false} FirstFileArgFrom(argv: seq<string>, i: nat, k: nat)
    requires i <= k < |argv|
    requires FollowsFileFlag(argv, k)
    requires forall j :: i <= j < k ==> !FollowsFileFlag(argv, j)
    ensures |FileArgsFrom(argv, i)| > 0 && FileArgsFrom(argv, i)[0] == argv[k]
    decreases k - i
  {
    if i < k {
      FirstFileArgFrom(argv, i + 1, k);
    }
  }

  /** The chosen file is the first entry that follows `--file` when that entry
      is non-empty; otherwise (no such entry, or an empty one) the default. */
  lemma FileNameChoice(argv: seq<string>)
    ensures forall i: nat :: IsFirstFileArg(argv, i) && argv[i] != "" ==> FileName(argv) == argv[i]
    ensures forall i: nat :: IsFirstFileArg(argv, i) && argv[i] == "" ==> FileName(argv) == DefaultFile
    ensures (forall j :: 0 <= j < |argv| ==> !FollowsFileFlag(argv, j)) ==> FileName(argv) == DefaultFile
  {
    forall i: nat | IsFirstFileArg(argv, i)
      ensures |FileArgsFrom(argv, 0)| > 0 && FileArgsFrom(argv, 0)[0] == argv[i]
    {
      FirstFileArgFrom(argv, 0, i);
    }
    if forall j :: 0 <= j < |argv| ==> !FollowsFileFlag(argv, j) {
      NoFileArgsFrom(argv, 0);
    }
  }

  /** The first entry of `argv` can never be taken as the file name. */
  lemma FirstEntryNeverChosen(argv: seq<string>)
    requires |argv| > 0 && argv[0] != DefaultFile
    requires forall j :: 1 <= j < |argv| ==> argv[j] != argv[0]
    ensures FileName(argv) != argv[0]
  {
    var m := FileArgsFrom(argv, 0);
    if |m| > 0 {
      FileArgsAreFollowers(argv, 0);
      assert m[0] in m;
    }
  }

  lemma {:induction false} FileArgsAreFollowers(argv: seq<string>, i: nat)
    requires i <= |argv|
    ensures forall a :: a in FileArgsFrom(argv, i) ==>
              exists j :: i <= j < |argv| && FollowsFileFlag(argv, j) && argv[j] == a
    decreases |argv| - i
  {
    if i < |argv| {
      FileArgsAreFollowers(argv, i + 1);
    }
  }

  /** `pathStr.replace(/^~\//, '')`: drop one leading `~/`. */
  function StripHomePrefix(p: string): (r: string)
    ensures |r| <= |p|
  {
    if |p| >= 2 && p[0] == '~' && p[1] == '/' then p[2..] else p
  }

  /** Exactly one leading `~/` is removed; anything else is left alone. */
  lemma StripHomePrefixSpec(p: string, s: string)
    ensures StripHomePrefix("~/" + s) == s
    ensures !(|p| >= 2 && p[..2] == "~/") ==> StripHomePrefix(p) == p
    ensures StripHomePrefix("~/~/" + s) == "~/" + s
  {
    assert ("~/" + s)[2..] == s;
    assert ("~/~/" + s)[2..] == "~/" + s;
    if |p| >= 2 && p[0] == '~' && p[1] == '/' {
      assert p[..2] == "~/";
    }
  }

  /** `absPathFromHomeRelative`: the home directory joined with the path
      stripped of its `~/`. */
  function AbsPathFromHomeRelative(home: string, p: string): (r: string)
    ensures |r| > |home| && r[..|home|] == home && r[|home|] == '/'
    ensures r[|home| + 1..] == StripHomePrefix(p)
  {
    Slash(home, StripHomePrefix(p))
  }

  /** `path.resolve(base, p)`: an absolute `p` stands alone, a relative one is
      taken below `base` (no `..` or `.` normalisation is modelled). */
  function Resolve(base: string, p: string): (r: string)
    ensures |p| > 0 && p[0] == '/' ==> r == p
    ensures !(|p| > 0 && p[0] == '/') ==> r == Slash(base, p)
  {
    if |p| > 0 && p[0] == '/' then p else Slash(base, p)
  }

  /** The two install paths resolve to nested directories below home. */
  lemma InstallPathsNest(home: string)
    ensures AbsPathFromHomeRelative(home, TorchPath) == Slash(home, "torch")
    ensures AbsPathFromHomeRelative(home, NeuralStylePath)
         == Slash(AbsPathFromHomeRelative(home, TorchPath), "neural-style")
  {
    var rest := "torch" + "/" + "neural-style";
    assert NeuralStylePath == "~/" + rest;
    StripHomePrefixSpec("", "torch");
    StripHomePrefixSpec("", rest);
  }

  /** The exported configuration, from the command line, `$HOME` and the
      directory holding the scripts. */
  function Load(argv: seq<string>, home: string, dirname: string): (c: Config)
    ensures c.inputFile == FileName(argv)
    ensures c.inputFileAbsPath == Resolve(dirname, FileName(argv))
    ensures c.tilePattern == TilePattern
    ensures c.projectRoot == dirname
    ensures c.tilesDir == Slash(c.projectRoot, "tiles") && c.outputDir == Slash(c.projectRoot, "output")
    ensures c.tilesDir != c.outputDir
    ensures c.torchPath == TorchPath && c.neuralStylePath == NeuralStylePath
    ensures c.torchAbsPath == Slash(home, "torch")
    ensures c.neuralStyleAbsPath == Slash(c.torchAbsPath, "neural-style")
  {
    InstallPathsNest(home);
    Config(
      inputFile := FileName(argv),
      inputFileAbsPath := Resolve(dirname, FileName(argv)),
      projectRoot := dirname,
      tilesDir := Slash(dirname, "tiles"),
      outputDir := Slash(dirname, "output"),
      tilePattern := TilePattern,
      torchPath := TorchPath,
      torchAbsPath := AbsPathFromHomeRelative(home, TorchPath),
      neuralStylePath := NeuralStylePath,
      neuralStyleAbsPath := AbsPathFromHomeRelative(home, NeuralStylePath))
  }
}

=== FILE: geometry.dfy ===
/**
  Tiling geometry (gridify.js): the tile size and column count derived from
  the image dimensions and the maximum tile size, and the pixel offset of a
  tile from its index. `Math.round`, `Math.floor` and `Math.ceil` are written
  as exact integer arithmetic on positive operands.
 */
module Geometry {
  import opened Text
  import opened Util
  import opened TileNames

  type Pos = n: int | n >= 1 witness 1

  /** Width and height of the source image, as the probe reports them. */
  datatype Dimensions = Dimensions(width: Pos, height: Pos)

  /** Square tiles of side `tileSize`, laid out in `columns` columns. */
  datatype Grid = Grid(tileSize: Pos, columns: Pos)

  /** Multiplying by a non-negative factor keeps the order, and a strict gap
      of one becomes a gap of the factor. */
  lemma MulStep(a: int, b: int, c: nat)
    ensures a <= b ==> a * c <= b * c
    ensures a < b ==> a * c + c <= b * c
  {
    var k := b - a;
    assert b * c - a * c == k * c;
    if k >= 1 {
      var j: nat := k - 1;
      assert k * c == c + j * c;
    }
  }

  /** Euclidean division is unique. */
  lemma DivModUnique(n: nat, d: Pos, q: nat, m: nat)
    requires n == q * d + m && m < d
    ensures n / d == q && n % d == m
  {
    var q' := n / d;
    assert n == q' * d + n % d;
    MulStep(q, q', d);
    MulStep(q', q, d);
  }

  /** `Math.round(p / q)`: the nearest integer, halves rounded up. */
  function RoundDiv(p: nat, q: Pos): (r: nat)
    ensures (2 * r - 1) * q <= 2 * p < (2 * r + 1) * q
  {
    var r := (2 * p + q) / (2 * q);
    assert 2 * q * r <= 2 * p + q < 2 * q * r + 2 * q by {
      assert 2 * p + q == 2 * q * r + (2 * p + q) % (2 * q);
    }
    assert (2 * r - 1) * q == 2 * q * r - q;
    assert (2 * r + 1) * q == 2 * q * r + q;
    r
  }

  /** A product order with a positive factor is the order of the other
      factors. */
  lemma FactorOrder(a: int, b: int, c: Pos)
    ensures a * c < b * c ==> a < b
  {
    MulStep(b, a, c);
  }

  /** Splitting `size` into `floor(size / max) + 1` parts: there are at most
      twice `size` parts, and `max` parts of that count exceed `size`. */
  lemma PartsBounds(size: Pos, maxTile: Pos)
    ensures size / maxTile + 1 <= 2 * size
    ensures size < maxTile * (size / maxTile + 1)
  {
    var q := size / maxTile;
    assert size == maxTile * q + size % maxTile;
    MulStep(1, maxTile, q);
    assert maxTile * (q + 1) == maxTile * q + maxTile;
  }

  /** `maxTilesFor(size)`: split `size` into `floor(size / max) + 1` equal
      parts and round the part. The part is positive and no larger than the
      maximum. */
  function MaxTilesFor(size: Pos, maxTile: Pos): (r: Pos)
    ensures r <= maxTile
    ensures var parts := size / maxTile + 1;
            (2 * r - 1) * parts <= 2 * size < (2 * r + 1) * parts
  {
    var parts := size / maxTile + 1;
    var r := RoundDiv(size, parts);
    PartsBounds(size, maxTile);
    FactorOrder(1, 2 * r + 1, parts);
    assert 2 * size < (2 * maxTile) * parts by {
      assert (2 * maxTile) * parts == 2 * (maxTile * parts);
    }
    FactorOrder(2 * r - 1, 2 * maxTile, parts);
    r
  }

  /** The axis whose remainder modulo the maximum is strictly larger decides;
      on a tie the height does. */
  function TileSize(d: Dimensions, maxTile: Pos): (r: Pos)
    ensures r <= maxTile
    ensures d.width % maxTile > d.height % maxTile ==> r == MaxTilesFor(d.width, maxTile)
    ensures d.width % maxTile <= d.height % maxTile ==> r == MaxTilesFor(d.height, maxTile)
  {
    if d.width % maxTile > d.height % maxTile then MaxTilesFor(d.width, maxTile)
    else MaxTilesFor(d.height, maxTile)
  }

  /** `Math.ceil(size / tileSize)`: the fewest tiles that span `size`. */
  function CeilDiv(size: Pos, tileSize: Pos): (c: Pos)
    ensures (c - 1) * tileSize < size <= c * tileSize
  {
    var c := (size + tileSize - 1) / tileSize;
    var m := (size + tileSize - 1) % tileSize;
    assert size + tileSize - 1 == c * tileSize + m;
    assert c * tileSize <= size + tileSize - 1 < c * tileSize + tileSize;
    assert (c - 1) * tileSize == c * tileSize - tileSize;
    c
  }

  /** The grid gridify.js computes before cropping. */
  function GridFor(d: Dimensions, maxTile: Pos): (g: Grid)
    ensures g.tileSize == TileSize(d, maxTile) && g.tileSize <= maxTile
    ensures (g.columns - 1) * g.tileSize < d.width <= g.columns * g.tileSize
  {
    var ts := TileSize(d, maxTile);
    Grid(ts, CeilDiv(d.width, ts))
  }

  /** 1000 x 700 with a maximum of 400: the height's remainder (300) beats the
      width's (200), 700 splits into two parts of 350, in 3 columns. */
  lemma GridExample()
    ensures GridFor(Dimensions(1000, 700), 400) == Grid(350, 3)
  {
  }

  /** Rows the crop produces: the fewest tiles that span the height. */
  function Rows(d: Dimensions, g: Grid): (rows: Pos)
    ensures (rows - 1) * g.tileSize < d.height <= rows * g.tileSize
  {
    CeilDiv(d.height, g.tileSize)
  }

  /** Grid cell of tile `index`: `(index % columns, floor(index / columns))`. */
  function Cell(index: nat, g: Grid): (cell: (nat, nat))
    ensures cell.0 < g.columns
    ensures index == cell.1 * g.columns + cell.0
  {
    (index % g.columns, index / g.columns)
  }

  /** Pixel offset of tile `index`: its cell scaled by the tile size. */
  function Offset(index: nat, g: Grid): (o: (nat, nat))
    ensures o.0 + g.tileSize <= g.columns * g.tileSize
    ensures o.0 % g.tileSize == 0 && o.1 % g.tileSize == 0
  {
    var cell := Cell(index, g);
    MulStep(cell.0, g.columns, g.tileSize);
    DivModUnique(cell.0 * g.tileSize, g.tileSize, cell.0, 0);
    DivModUnique(cell.1 * g.tileSize, g.tileSize, cell.1, 0);
    (cell.0 * g.tileSize, cell.1 * g.tileSize)
  }

  function Dist(a: int, b: int): nat {
    if a <= b then b - a else a - b
  }

  lemma ScaledApart(a: nat, b: nat, t: Pos)
    requires a != b
    ensures Dist(a * t, b * t) >= t
  {
    MulStep(a, b, t);
    MulStep(b, a, t);
  }

  /** Distinct tiles sit at least a tile apart on some axis, so no two tiles
      overlap. */
  lemma OffsetsApart(i: nat, j: nat, g: Grid)
    requires i != j
    ensures Dist(Offset(i, g).0, Offset(j, g).0) >= g.tileSize
         || Dist(Offset(i, g).1, Offset(j, g).1) >= g.tileSize
  {
    var ci := Cell(i, g);
    var cj := Cell(j, g);
    if ci.1 == cj.1 {
      assert ci.0 != cj.0;
      ScaledApart(ci.0, cj.0, g.tileSize);
    } else {
      ScaledApart(ci.1, cj.1, g.tileSize);
    }
  }

  /** The tile a pixel falls in: the crop numbers tiles left to right, then
      top to bottom. */
  function TileAt(x: nat, y: nat, g: Grid): nat {
    (y / g.tileSize) * g.columns + x / g.tileSize
  }

  /** The square of tile `index` contains the pixel `(x, y)`. */
  predicate Covers(index: nat, g: Grid, x: nat, y: nat) {
    var o := Offset(index, g);
    o.0 <= x < o.0 + g.tileSize && o.1 <= y < o.1 + g.tileSize
  }

  /** A coordinate below `n` tiles falls in a tile below `n`, and in the
      tile's span. */
  lemma TileOfCoordinate(x: nat, ts: Pos, n: nat)
    requires x < n * ts
    ensures x / ts < n
    ensures (x / ts) * ts <= x < (x / ts) * ts + ts
  {
    assert x == (x / ts) * ts + x % ts;
    MulStep(n, x / ts, ts);
  }

  /** The only tile whose span holds `x` is `x / ts`. */
  lemma SpanOwner(x: nat, ts: Pos, c: nat)
    requires c * ts <= x < c * ts + ts
    ensures c == x / ts
  {
    DivModUnique(x, ts, c, x - c * ts);
  }

  /** A tile's square covers the pixel exactly when its cell is the pixel's. */
  lemma CoversCell(i: nat, g: Grid, x: nat, y: nat)
    ensures Covers(i, g, x, y) ==> Cell(i, g) == (x / g.tileSize, y / g.tileSize)
  {
    var c := Cell(i, g);
    if Covers(i, g, x, y) {
      SpanOwner(x, g.tileSize, c.0);
      SpanOwner(y, g.tileSize, c.1);
    }
  }

  /** The cell of the tile a pixel falls in is the pixel's cell. */
  lemma CellOfTileAt(x: nat, y: nat, g: Grid)
    requires x / g.tileSize < g.columns
    ensures Cell(TileAt(x, y, g), g) == (x / g.tileSize, y / g.tileSize)
  {
    DivModUnique(TileAt(x, y, g), g.columns, y / g.tileSize, x / g.tileSize);
  }

  /** The tile a pixel falls in covers it. */
  lemma TileAtCovers(x: nat, y: nat, g: Grid)
    requires x / g.tileSize < g.columns
    ensures Covers(TileAt(x, y, g), g, x, y)
  {
    var ts := g.tileSize;
    CellOfTileAt(x, y, g);
    assert x == (x / ts) * ts + x % ts;
    assert y == (y / ts) * ts + y % ts;
  }

  /** A pixel in row `row < rows` and column `col < columns` falls in one of
      the first `columns * rows` tiles. */
  lemma TileIndexBelow(row: nat, col: nat, columns: Pos, rows: Pos)
    requires row < rows && col < columns
    ensures row * columns + col < columns * rows
  {
    MulStep(row, rows, columns);
    assert rows * columns == columns * rows;
  }

  /** Every pixel of the image lies in exactly one tile, and that tile is one
      the crop produced: placing the tiles at their offsets rebuilds the
      image's footprint. */
  lemma PixelCoveredOnce(d: Dimensions, g: Grid, x: nat, y: nat)
    requires d.width <= g.columns * g.tileSize
    requires x < d.width && y < d.height
    ensures Covers(TileAt(x, y, g), g, x, y)
    ensures TileAt(x, y, g) < g.columns * Rows(d, g)
    ensures forall i: nat :: Covers(i, g, x, y) ==> i == TileAt(x, y, g)
  {
    var ts := g.tileSize;
    TileOfCoordinate(x, ts, g.columns);
    TileOfCoordinate(y, ts, Rows(d, g));
    TileAtCovers(x, y, g);
    TileIndexBelow(y / ts, x / ts, g.columns, Rows(d, g));
    forall i: nat | Covers(i, g, x, y)
      ensures i == TileAt(x, y, g)
    {
      CoversCell(i, g, x, y);
    }
  }

  /** `positionFromTile`: the `-page` geometry `+<x>+<y>` of a tile file;
      a name without an index renders as `NaN` on both axes. */
  function PositionFromTile(name: string, g: Grid): (r: string)
    ensures |r| >= 4 && r[0] == '+'
    ensures r == "+NaN+NaN" <==> NoDigits(name)
  {
    match NumFromTile(name)
    case None => "+NaN+NaN"
    case Some(n) =>
      var x := NatToString(Offset(n, g).0);
      var r := "+" + x + "+" + NatToString(Offset(n, g).1);
      assert r[1] == x[0] && IsDigit(r[1]);
      r
  }

  /** The page geometry of the file for tile `n` is that tile's offset. */
  lemma PositionOfTile(n: nat, g: Grid)
    ensures PositionFromTile(TileName(n), g)
         == "+" + NatToString(Offset(n, g).0) + "+" + NatToString(Offset(n, g).1)
  {
    NumFromTileName(n);
  }
}

=== FILE: gridify.dfy ===
/**
  The gridify.js pipeline: probe the input's dimensions, choose the grid,
  crop the input into tiles, list and sort the tiles, style the selected ones,
  and reassemble the tiles into one mosaic. Everything the outside world
  decides (the probe, the subprocesses' errors, the directory listing, the
  image write) is a field of `World`.
 */
module Gridify {
  import opened Text
  import opened Util
  import Config
  import opened TileNames
  import opened Geometry
  import opened Commands
  import opened Stage

  // ---------------------------------------------------------------------------
  // `reassemble`: `files.reduce(addTile, gm())` followed by `.mosaic().write(...)`.

  /** `addTile`'s contribution: `-page <position>` and the tile's path. */
  function TileArgs(file: string, g: Grid, tilesDir: string): (a: seq<string>)
    ensures |a| == 3
  {
    ["-page", PositionFromTile(file, g), Slash(tilesDir, file)]
  }

  /** A left fold that appends each item's arguments to the chain. */
  function AppendAll<T>(chain: seq<string>, items: seq<T>, part: T -> seq<string>): seq<string>
    decreases |items|
  {
    if |items| == 0 then chain else AppendAll(chain + part(items[0]), items[1..], part)
  }

  /** `files.reduce(addTile, gm())`: the input arguments of the chain. */
  function AddTiles(files: seq<string>, g: Grid, tilesDir: string): seq<string> {
    AppendAll([], files, f => TileArgs(f, g, tilesDir))
  }

  /** Reference layout: item `i` contributes its three arguments at positions
      `3i .. 3i+2`. */
  ghost predicate Laid<T>(args: seq<string>, items: seq<T>, part: T -> seq<string>) {
    && |args| == 3 * |items|
    && forall i :: 0 <= i < |items| ==>
         |part(items[i])| == 3 && args[3 * i..3 * i + 3] == part(items[i])
  }

  /** The fold keeps what the chain held and appends the reference layout. */
  lemma {:induction false} AppendAllLays<T>(chain: seq<string>, items: seq<T>, part: T -> seq<string>)
    requires forall x :: |part(x)| == 3
    ensures |AppendAll(chain, items, part)| >= |chain|
    ensures AppendAll(chain, items, part)[..|chain|] == chain
    ensures Laid(AppendAll(chain, items, part)[|chain|..], items, part)
    decreases |items|
  {
    var r := AppendAll(chain, items, part);
    if |items| == 0 {
      assert r[|chain|..] == [];
    } else {
      var next := chain + part(items[0]);
      AppendAllLays(next, items[1..], part);
      assert r[..|next|] == next;
      assert r[..|chain|] == next[..|chain|];
      var rest := r[|chain|..];
      var tail := r[|next|..];
      assert rest == part(items[0]) + tail;
      forall i | 0 <= i < |items|
        ensures rest[3 * i..3 * i + 3] == part(items[i])
      {
        if i > 0 {
          assert items[1..][i - 1] == items[i];
          assert rest[3 * i..3 * i + 3] == tail[3 * (i - 1)..3 * (i - 1) + 3];
        } else {
          assert rest[..3] == part(items[0]);
        }
      }
    }
  }

  /** File `i` of the mosaic: `-page`, its page geometry, its path. */
  ghost predicate PlacesFiles(args: seq<string>, files: seq<string>, g: Grid, tilesDir: string) {
    && |args| == 3 * |files|
    && forall i :: 0 <= i < |files| ==>
         && args[3 * i] == "-page"
         && args[3 * i + 1] == PositionFromTile(files[i], g)
         && args[3 * i + 2] == Slash(tilesDir, files[i])
  }

  /** An element of the reference layout is an element of its item's part. */
  lemma LaidElement<T>(args: seq<string>, items: seq<T>, part: T -> seq<string>, i: nat, j: nat)
    requires Laid(args, items, part)
    requires i < |items| && j < 3
    ensures args[3 * i + j] == part(items[i])[j]
  {
    assert args[3 * i..3 * i + 3][j] == args[3 * i + j];
  }

  /** The reference layout of `addTile`'s arguments places each file. */
  lemma LaidPlaces(args: seq<string>, files: seq<string>, g: Grid, tilesDir: string,
                   part: string -> seq<string>)
    requires forall f :: part(f) == TileArgs(f, g, tilesDir)
    requires Laid(args, files, part)
    ensures PlacesFiles(args, files, g, tilesDir)
  {
    forall i | 0 <= i < |files|
      ensures args[3 * i] == "-page"
      ensures args[3 * i + 1] == PositionFromTile(files[i], g)
      ensures args[3 * i + 2] == Slash(tilesDir, files[i])
    {
      var a := TileArgs(files[i], g, tilesDir);
      LaidElement(args, files, part, i, 0);
      LaidElement(args, files, part, i, 1);
      LaidElement(args, files, part, i, 2);
      assert args[3 * i] == a[0] && args[3 * i + 1] == a[1] && args[3 * i + 2] == a[2];
    }
  }

  /** The chain `files.reduce(addTile, gm())` builds places file `i` at
      arguments `3i .. 3i+2`. */
  lemma AddTilesPlaces(files: seq<string>, g: Grid, tilesDir: string)
    ensures PlacesFiles(AddTiles(files, g, tilesDir), files, g, tilesDir)
  {
    var part := f => TileArgs(f, g, tilesDir);
    AppendAllLays([], files, part);
    var args := AddTiles(files, g, tilesDir);
    assert args[0..] == args;
    LaidPlaces(args, files, g, tilesDir, part);
  }

  /** What `mosaic().write` is asked to produce. */
  datatype Mosaic = Mosaic(args: seq<string>, output: string)

  /** `reassemble(files, outputFile)`: rejects with the write's error, else
      resolves having written the mosaic of every file at its page geometry. */
  function Reassemble<E>(files: seq<string>, g: Grid, tilesDir: string, outputFile: string,
                         writeError: Option<E>): (r: Outcome<Mosaic, E>)
    ensures r.Ok? <==> writeError.None?
    ensures writeError.Some? ==> r == Err(writeError.value)
    ensures r.Ok? ==> r.value.output == outputFile && PlacesFiles(r.value.args, files, g, tilesDir)
  {
    AddTilesPlaces(files, g, tilesDir);
    match writeError
    case Some(e) => Err(e)
    case None => Ok(Mosaic(AddTiles(files, g, tilesDir), outputFile))
  }

  // ---------------------------------------------------------------------------
  // The whole promise chain.

  /** What the outside world reports during one run: the probed dimensions
      (or the probe's error), the crop's error, the directory read's error
      and listing, the error of command `k` of the `i`-th styled tile, and
      the mosaic write's error. */
  datatype World<E> = World(
    dimensions: Outcome<Dimensions, E>,
    cropError: Option<E>,
    readDirError: Option<E>,
    listing: seq<string>,
    reports: (nat, nat) -> Option<E>,
    writeError: Option<E>)

  /** A run that reached the end: the grid, the crop command, the tile list
      handed to `reassemble`, and the mosaic written. */
  datatype Finished = Finished(grid: Grid, crop: string, tiles: seq<string>, mosaic: Mosaic)

  /** The ImageMagick crop of the input into `tiles/tiles_%d.png`. */
  function CropCommand(cfg: Config.Config, g: Grid): string {
    Render(Crop(cfg.inputFileAbsPath, g.tileSize, Slash(cfg.tilesDir, GridifyTilePattern)))
  }

  function PathsOf(cfg: Config.Config, styleFile: string): Paths {
    Paths(cfg.tilesDir, cfg.neuralStyleAbsPath, styleFile)
  }

  /** `output('output.png')`. */
  function OutputFile(cfg: Config.Config): string {
    Slash(cfg.outputDir, "output.png")
  }

  /** The chain from the dimension probe to the mosaic write; `Err` is what
      the final `.catch` receives. */
  function Pipeline<E>(cfg: Config.Config, styleFile: string, maxTile: Pos, flags: Flags,
                       w: World<E>): (r: Outcome<Finished, E>)
    // The first step that fails decides the error.
    ensures w.dimensions.Err? ==> r == Err(w.dimensions.error)
    ensures w.dimensions.Ok? && w.cropError.Some? ==> r == Err(w.cropError.value)
    ensures w.dimensions.Ok? && w.cropError.None? && w.readDirError.Some? ==> r == Err(w.readDirError.value)
    ensures w.dimensions.Ok? && w.cropError.None? && w.readDirError.None? ==>
              (var stage := StyleStage(SortTiles(w.listing), flags, PathsOf(cfg, styleFile),
                                       GridFor(w.dimensions.value, maxTile).tileSize, w.reports);
               && (stage.Err? ==> r == Err(stage.error))
               && (stage.Ok? && w.writeError.Some? ==> r == Err(w.writeError.value))
               && (stage.Ok? && w.writeError.None? ==> r.Ok?))
    // A finished run: every external step succeeded ...
    ensures r.Ok? ==> w.dimensions.Ok? && w.cropError.None? && w.readDirError.None? && w.writeError.None?
    // ... on the grid the dimensions give ...
    ensures r.Ok? ==> (r.value.grid == GridFor(w.dimensions.value, maxTile)
                       && r.value.crop == CropCommand(cfg, r.value.grid))
    // ... reassembling every listed tile once, in index order ...
    ensures r.Ok? ==> r.value.tiles == SortTiles(w.listing)
    ensures r.Ok? ==> multiset(r.value.tiles) == multiset(w.listing)
    ensures r.Ok? && AllKeyed(NumFromTile, w.listing) ==>
              AllKeyed(NumFromTile, r.value.tiles) && SortedBy(NumFromTile, r.value.tiles)
    // ... at their page geometries, into `output/output.png`.
    ensures r.Ok? ==> (r.value.mosaic.output == OutputFile(cfg)
                       && PlacesFiles(r.value.mosaic.args, r.value.tiles, r.value.grid, cfg.tilesDir))
  {
    match w.dimensions
    case Err(e) => Err(e)
    case Ok(d) =>
      var g := GridFor(d, maxTile);
      var crop := ExecCommand(CropCommand(cfg, g), false, w.cropError).outcome;
      if crop.Err? then Err(crop.error)
      else
        match Ls(w.readDirError, w.listing)
        case Err(e) => Err(e)
        case Ok(list) =>
          match StyleStage(SortTiles(list), flags, PathsOf(cfg, styleFile), g.tileSize, w.reports)
          case Err(e) => Err(e)
          case Ok(files) =>
            match Reassemble(files, g, cfg.tilesDir, OutputFile(cfg), w.writeError)
            case Err(e) => Err(e)
            case Ok(m) => Ok(Finished(g, CropCommand(cfg, g), files, m))
  }

  /** With `--skip-nn` the style tool never runs: the run does not depend on
      what its commands would report. */
  lemma SkipIgnoresStyleReports<E>(cfg: Config.Config, styleFile: string, maxTile: Pos, flags: Flags,
                                   w: World<E>, reports: (nat, nat) -> Option<E>)
    requires flags.skipNN
    ensures Pipeline(cfg, styleFile, maxTile, flags, w)
         == Pipeline(cfg, styleFile, maxTile, flags, w.(reports := reports))
  {
  }

  /** When every step succeeds the run finishes; tiles outside the selection
      may report anything, since they never reach the style tool. */
  lemma QuietWorldFinishes<E>(cfg: Config.Config, styleFile: string, maxTile: Pos, flags: Flags, w: World<E>)
    requires w.dimensions.Ok? && w.cropError.None? && w.readDirError.None? && w.writeError.None?
    requires forall i, k :: 0 <= i < |FilesToConvert(SortTiles(w.listing), flags)| && 1 <= k < 7 ==>
               w.reports(i, k).None?
    ensures Pipeline(cfg, styleFile, maxTile, flags, w).Ok?
  {
    var g := GridFor(w.dimensions.value, maxTile);
    StageSucceeds(SortTiles(w.listing), flags, PathsOf(cfg, styleFile), g.tileSize, w.reports);
  }

  /** A failing style command is fatal to the run: the first command of the
      stage that reports an error (other than the best-effort clean-up) ends
      the whole chain with that error, and no mosaic is written. */
  lemma StyleFailureEndsRun<E>(cfg: Config.Config, styleFile: string, maxTile: Pos, flags: Flags,
                               w: World<E>, i: nat, k: nat)
    requires w.dimensions.Ok? && w.cropError.None? && w.readDirError.None?
    requires !flags.skipNN
    requires i < |FilesToConvert(SortTiles(w.listing), flags)| && 1 <= k < 7
    requires forall j, m :: 0 <= j < i && 1 <= m < 7 ==> w.reports(j, m).None?
    requires forall m :: 1 <= m < k ==> w.reports(i, m).None?
    requires w.reports(i, k).Some?
    ensures Pipeline(cfg, styleFile, maxTile, flags, w) == Err(w.reports(i, k).value)
  {
    var g := GridFor(w.dimensions.value, maxTile);
    CommandFailureEndsStage(SortTiles(w.listing), flags, PathsOf(cfg, styleFile), g.tileSize, w.reports, i, k);
  }

  /** The mosaic arguments of a crop's names in order: tile `i` is placed at
      its own offset. */
  lemma CropNamesPlaced(args: seq<string>, n: nat, g: Grid, tilesDir: string)
    requires PlacesFiles(args, CropNames(n), g, tilesDir)
    ensures |args| == 3 * n
    ensures forall i :: 0 <= i < n ==>
              && args[3 * i + 1] == "+" + NatToString(Offset(i, g).0) + "+" + NatToString(Offset(i, g).1)
              && args[3 * i + 2] == Slash(tilesDir, TileName(i))
  {
    forall i | 0 <= i < n
      ensures args[3 * i + 1] == "+" + NatToString(Offset(i, g).0) + "+" + NatToString(Offset(i, g).1)
    {
      assert CropNames(n)[i] == TileName(i);
      PositionOfTile(i, g);
    }
  }

  /** After a fresh crop of `n` tiles, listed in any order, the mosaic
      receives tile `i` at argument positions `3i .. 3i+2`, placed at tile
      `i`'s offset. */
  lemma FreshCropReassembles<E>(cfg: Config.Config, styleFile: string, maxTile: Pos, flags: Flags,
                                w: World<E>, n: nat)
    requires multiset(w.listing) == multiset(CropNames(n))
    requires Pipeline(cfg, styleFile, maxTile, flags, w).Ok?
    ensures var f := Pipeline(cfg, styleFile, maxTile, flags, w).value;
      && f.tiles == CropNames(n)
      && |f.mosaic.args| == 3 * n
      && forall i :: 0 <= i < n ==>
           && f.mosaic.args[3 * i + 1]
                == "+" + NatToString(Offset(i, f.grid).0) + "+" + NatToString(Offset(i, f.grid).1)
           && f.mosaic.args[3 * i + 2] == Slash(cfg.tilesDir, TileName(i))
  {
    var f := Pipeline(cfg, styleFile, maxTile, flags, w).value;
    FreshCropSortsInOrder(w.listing, n);
    CropNamesPlaced(f.mosaic.args, n, f.grid, cfg.tilesDir);
  }
}

=== FILE: stage.dfy ===
/**
  The style-transfer stage of gridify.js: one promise chain of seven
  commands per selected tile, and `runInSequence` over the tiles, so a tile's
  commands start only after every command of the previous tile resolved.
  Each command's outcome is a parameter: `reports(i, k)` is the error (or
  nothing) that command `k` of the `i`-th styled tile reports.
 */
module Stage {
  import opened Util
  import opened Commands

  /** Outcome of one invocation whose subprocess reported `error`. A best-effort
      command (`execRegardless`, as written: the quiet flag gridify.js passes
      is dropped) always resolves; any other resolves exactly when no error
      was reported, and rejects with that error. */
  function Perform<E>(inv: Invocation, error: Option<E>): (r: Outcome<(), E>)
    ensures inv.runner.BestEffort? ==> r.Ok?
    ensures !inv.runner.BestEffort? ==> (r.Ok? <==> error.None?)
    ensures !inv.runner.BestEffort? && error.Some? ==> r == Err(error.value)
  {
    match inv.runner
    case BestEffort => ExecRegardless(Render(inv.command), error).outcome
    case Echoing => ExecCommand(Render(inv.command), false, error).outcome
    case Quiet => ExecCommand(Render(inv.command), true, error).outcome
  }

  /** The promise chain of one tile, as a step list. */
  function JobSteps<E>(job: seq<Invocation>, report: nat -> Option<E>): (steps: seq<UnitStep<E>>)
    ensures |steps| == |job|
    ensures forall k :: 0 <= k < |job| ==> steps[k](()) == Perform(job[k], report(k))
  {
    seq(|job|, k requires 0 <= k < |job| => (u: ()) => Perform(job[k], report(k)))
  }

  function RunJob<E>(job: seq<Invocation>, report: nat -> Option<E>): Run<(), E> {
    RunInSequence(JobSteps(job, report), ())
  }

  /** The reports of the `i`-th tile's commands. */
  function TileReports<E>(reports: (nat, nat) -> Option<E>, i: nat): nat -> Option<E> {
    (k: nat) => reports(i, k)
  }

  /** `copyAndProcessFiles`: one step per tile, settling as its chain does. */
  function StageSteps<E>(jobs: seq<seq<Invocation>>, reports: (nat, nat) -> Option<E>): (steps: seq<UnitStep<E>>)
    ensures |steps| == |jobs|
    ensures forall i :: 0 <= i < |jobs| ==> steps[i](()) == RunJob(jobs[i], TileReports(reports, i)).result
  {
    seq(|jobs|, i requires 0 <= i < |jobs| => (u: ()) => RunJob(jobs[i], TileReports(reports, i)).result)
  }

  /** `runInSequence(copyAndProcessFiles)`. */
  function RunStage<E>(jobs: seq<seq<Invocation>>, reports: (nat, nat) -> Option<E>): Run<(), E> {
    RunInSequence(StageSteps(jobs, reports), ())
  }

  /** The jobs of the tiles that go through style transfer. */
  function StageJobs(files: seq<string>, flags: Flags, p: Paths, tileSize: nat): (jobs: seq<seq<Invocation>>)
    ensures |jobs| == |FilesToConvert(files, flags)|
    ensures forall i :: 0 <= i < |jobs| ==> jobs[i] == TileJob(p, FilesToConvert(files, flags)[i], tileSize, flags)
  {
    var selected := FilesToConvert(files, flags);
    seq(|selected|, i requires 0 <= i < |selected| => TileJob(p, selected[i], tileSize, flags))
  }

  /** The stage: under `--skip-nn` the listing is handed on untouched;
      otherwise the selected tiles are styled one after another and, when all
      succeed, the full listing (not the selection) is handed on. */
  function StyleStage<E>(files: seq<string>, flags: Flags, p: Paths, tileSize: nat,
                         reports: (nat, nat) -> Option<E>): (r: Outcome<seq<string>, E>)
    ensures r.Ok? ==> r.value == files
    ensures flags.skipNN ==> r == Ok(files)
    ensures !flags.skipNN ==> (r.Ok? <==> RunStage(StageJobs(files, flags, p, tileSize), reports).result.Ok?)
    ensures !flags.skipNN && r.Err? ==> RunStage(StageJobs(files, flags, p, tileSize), reports).result == Err(r.error)
  {
    if flags.skipNN then Ok(files)
    else
      match RunStage(StageJobs(files, flags, p, tileSize), reports).result
      case Err(e) => Err(e)
      case Ok(_) => Ok(files)
  }

  /** No command of the job rejects (best-effort ones never do). */
  ghost predicate JobSucceeds<E>(job: seq<Invocation>, report: nat -> Option<E>) {
    forall k :: 0 <= k < |job| ==> job[k].runner.BestEffort? || report(k).None?
  }

  lemma JobSucceedsRunsAll<E>(job: seq<Invocation>, report: nat -> Option<E>)
    requires JobSucceeds(job, report)
    ensures RunJob(job, report).result.Ok?
    ensures |RunJob(job, report).inputs| == |job|
  {
    AllResolvedRunsAll(JobSteps(job, report));
  }

  /** A tile starts only after every command of the previous tile ran and
      resolved: tiles never overlap in the style tool's directory. */
  lemma TilesRunOneAtATime<E>(jobs: seq<seq<Invocation>>, reports: (nat, nat) -> Option<E>, i: nat)
    requires i + 1 < |RunStage(jobs, reports).inputs|
    ensures RunJob(jobs[i], TileReports(reports, i)).result.Ok?
    ensures |RunJob(jobs[i], TileReports(reports, i)).inputs| == |jobs[i]|
  {
    var r := RunStage(jobs, reports);
    var steps := StageSteps(jobs, reports);
    assert steps[i](r.inputs[i]) == Ok(r.inputs[i + 1]);
    assert r.inputs[i] == ();
    var job := RunJob(jobs[i], TileReports(reports, i));
    assert job.result.Ok?;
  }

  /** A command that fails (a failing style run, say) ends the stage with its
      error; no command of that tile after it, and no later tile, starts. */
  lemma FailureAbortsStage<E>(jobs: seq<seq<Invocation>>, reports: (nat, nat) -> Option<E>, i: nat, k: nat)
    requires i < |jobs| && k < |jobs[i]|
    requires forall j :: 0 <= j < i ==> JobSucceeds(jobs[j], TileReports(reports, j))
    requires forall j :: 0 <= j < k ==> jobs[i][j].runner.BestEffort? || reports(i, j).None?
    requires !jobs[i][k].runner.BestEffort? && reports(i, k).Some?
    ensures RunStage(jobs, reports).result == Err(reports(i, k).value)
    ensures |RunStage(jobs, reports).inputs| == i + 1
    ensures |RunJob(jobs[i], TileReports(reports, i)).inputs| == k + 1
  {
    var jobSteps := JobSteps(jobs[i], TileReports(reports, i));
    FirstRejectionEndsRun(jobSteps, k);
    var steps := StageSteps(jobs, reports);
    forall j | 0 <= j < i
      ensures steps[j](()).Ok?
    {
      JobSucceedsRunsAll(jobs[j], TileReports(reports, j));
    }
    FirstRejectionEndsRun(steps, i);
  }

  /** When no command rejects, every selected tile runs all its commands and
      the stage hands on the full listing. */
  lemma StageSucceeds<E>(files: seq<string>, flags: Flags, p: Paths, tileSize: nat,
                         reports: (nat, nat) -> Option<E>)
    requires forall i, k :: 0 <= i < |FilesToConvert(files, flags)| && 1 <= k < 7 ==> reports(i, k).None?
    ensures StyleStage(files, flags, p, tileSize, reports) == Ok(files)
    ensures !flags.skipNN ==> |RunStage(StageJobs(files, flags, p, tileSize), reports).inputs|
                              == |FilesToConvert(files, flags)|
  {
    if !flags.skipNN {
      var jobs := StageJobs(files, flags, p, tileSize);
      var steps := StageSteps(jobs, reports);
      forall i | 0 <= i < |jobs|
        ensures steps[i](()).Ok?
      {
        TileJobSucceeds(p, FilesToConvert(files, flags)[i], tileSize, flags, TileReports(reports, i));
        JobSucceedsRunsAll(jobs[i], TileReports(reports, i));
      }
      AllResolvedRunsAll(steps);
    }
  }

  /** Only the first command of a tile is best effort: its job succeeds when
      none of the other six reports an error. */
  lemma TileJobSucceeds<E>(p: Paths, name: string, tileSize: nat, flags: Flags, report: nat -> Option<E>)
    requires forall k :: 1 <= k < 7 ==> report(k).None?
    ensures JobSucceeds(TileJob(p, name, tileSize, flags), report)
  {
    var job := TileJob(p, name, tileSize, flags);
    assert job[0].runner.BestEffort?;
  }

  /** The shape of every tile's chain: seven commands, of which only the
      first is best effort. */
  ghost predicate CleanupFirst(job: seq<Invocation>) {
    && |job| == 7
    && job[0].runner.BestEffort?
    && forall k :: 1 <= k < 7 ==> !job[k].runner.BestEffort?
  }

  lemma TileJobShape(p: Paths, name: string, tileSize: nat, flags: Flags)
    ensures CleanupFirst(TileJob(p, name, tileSize, flags))
  {
    var job := TileJob(p, name, tileSize, flags);
    assert forall k :: 1 <= k < 7 ==> job[k].runner == StepRunner(flags);
  }

  /** In a stage of chains of that shape, the first failing command other than
      a clean-up ends the stage with its error. */
  lemma ShapedFailureEndsStage<E>(jobs: seq<seq<Invocation>>, reports: (nat, nat) -> Option<E>, i: nat, k: nat)
    requires forall j :: 0 <= j < |jobs| ==> CleanupFirst(jobs[j])
    requires i < |jobs| && 1 <= k < 7
    requires forall j, m :: 0 <= j < i && 1 <= m < 7 ==> reports(j, m).None?
    requires forall m :: 1 <= m < k ==> reports(i, m).None?
    requires reports(i, k).Some?
    ensures RunStage(jobs, reports).result == Err(reports(i, k).value)
  {
    forall j | 0 <= j < i
      ensures JobSucceeds(jobs[j], TileReports(reports, j))
    {
      assert CleanupFirst(jobs[j]);
    }
    assert CleanupFirst(jobs[i]);
    FailureAbortsStage(jobs, reports, i, k);
  }

  /** The first style-stage command that reports an error (other than the
      best-effort clean-up) ends the stage with that error. */
  lemma CommandFailureEndsStage<E>(files: seq<string>, flags: Flags, p: Paths, tileSize: nat,
                                   reports: (nat, nat) -> Option<E>, i: nat, k: nat)
    requires !flags.skipNN
    requires i < |FilesToConvert(files, flags)| && 1 <= k < 7
    requires forall j, m :: 0 <= j < i && 1 <= m < 7 ==> reports(j, m).None?
    requires forall m :: 1 <= m < k ==> reports(i, m).None?
    requires reports(i, k).Some?
    ensures StyleStage(files, flags, p, tileSize, reports) == Err(reports(i, k).value)
  {
    var selected := FilesToConvert(files, flags);
    var jobs := StageJobs(files, flags, p, tileSize);
    forall j | 0 <= j < |jobs|
      ensures CleanupFirst(jobs[j])
    {
      TileJobShape(p, selected[j], tileSize, flags);
    }
    ShapedFailureEndsStage(jobs, reports, i, k);
  }

  /** A chain depends on its reports only. */
  lemma JobStepsAgree<E>(job: seq<Invocation>, report: nat -> Option<E>, other: nat -> Option<E>)
    requires forall k: nat :: report(k) == other(k)
    ensures JobSteps(job, report) == JobSteps(job, other)
  {
    var a := JobSteps(job, report);
    var b := JobSteps(job, other);
    forall k | 0 <= k < |a| ensures a[k] == b[k] {
      assert a[k](()) == b[k](());
    }
  }

  /** The stage's steps depend on the reports of its own tiles only. */
  lemma StageStepsAgree<E>(jobs: seq<seq<Invocation>>, reports: (nat, nat) -> Option<E>,
                           others: (nat, nat) -> Option<E>)
    requires forall i, k :: 0 <= i < |jobs| ==> reports(i, k) == others(i, k)
    ensures StageSteps(jobs, reports) == StageSteps(jobs, others)
  {
    var sa := StageSteps(jobs, reports);
    var sb := StageSteps(jobs, others);
    forall i | 0 <= i < |sa| ensures sa[i] == sb[i] {
      JobStepsAgree(jobs[i], TileReports(reports, i), TileReports(others, i));
      assert sa[i](()) == sb[i](());
    }
  }

  /** The style tool runs only on the selected tiles: the outcome of the stage
      depends on no report of a tile outside the selection (under `--skip-nn`,
      on none at all). */
  lemma StageIgnoresUnselected<E>(files: seq<string>, flags: Flags, p: Paths, tileSize: nat,
                                  reports: (nat, nat) -> Option<E>, others: (nat, nat) -> Option<E>)
    requires forall i, k :: 0 <= i < |FilesToConvert(files, flags)| ==> reports(i, k) == others(i, k)
    ensures StyleStage(files, flags, p, tileSize, reports) == StyleStage(files, flags, p, tileSize, others)
  {
    if !flags.skipNN {
      StageStepsAgree(StageJobs(files, flags, p, tileSize), reports, others);
    }
  }
}

=== FILE: text.dfy ===
/**
  Text helpers shared by the model: decimal digits, the decimal rendering
  that JavaScript template literals give a non-negative integer, the
  `parseInt(_, 10)` reading of a run of digits, and the two ways the program
  glues strings together (`Array.prototype.join` and slash-separated paths).
 */
module Text {

  predicate IsDigit(c: char) {
    '0' <= c <= '9'
  }

  predicate AllDigits(s: string) {
    forall i :: 0 <= i < |s| ==> IsDigit(s[i])
  }

  predicate NoDigits(s: string) {
    forall i :: 0 <= i < |s| ==> !IsDigit(s[i])
  }

  function DigitChar(d: nat): (c: char)
    requires d < 10
    ensures IsDigit(c)
  {
    ('0' as int + d) as char
  }

  function DigitValue(c: char): (d: nat)
    requires IsDigit(c)
    ensures d < 10
  {
    c as int - '0' as int
  }

  /** The decimal text of `n`, without leading zeros, as `${n}` renders it. */
  function NatToString(n: nat): (s: string)
    ensures |s| >= 1
    ensures AllDigits(s)
    ensures |s| > 1 ==> s[0] != '0'
    decreases n
  {
    if n < 10 then [DigitChar(n)] else NatToString(n / 10) + [DigitChar(n % 10)]
  }

  /** `parseInt(s, 10)` for a non-empty run of decimal digits. */
  function ParseDigits(s: string): nat
    requires AllDigits(s)
    decreases |s|
  {
    if |s| == 0 then 0 else ParseDigits(s[..|s| - 1]) * 10 + DigitValue(s[|s| - 1])
  }

  /** Reading back the decimal text of `n` gives `n`. */
  lemma {:induction false} ParseNatToString(n: nat)
    ensures ParseDigits(NatToString(n)) == n
    decreases n
  {
    var s := NatToString(n);
    if n < 10 {
      assert s == [DigitChar(n)];
      assert s[..0] == [];
    } else {
      ParseNatToString(n / 10);
      var t := NatToString(n / 10);
      assert s == t + [DigitChar(n % 10)];
      assert s[..|s| - 1] == t;
    }
  }

  /** Distinct numbers have distinct decimal texts. */
  lemma NatToStringInjective(m: nat, n: nat)
    requires NatToString(m) == NatToString(n)
    ensures m == n
  {
    ParseNatToString(m);
    ParseNatToString(n);
  }

  /** `parts.join(sep)`: the parts in order, separated by `sep`. */
  function JoinWith(parts: seq<string>, sep: string): (r: string)
    ensures |parts| == 0 ==> r == ""
    ensures |parts| == 1 ==> r == parts[0]
    decreases |parts|
  {
    if |parts| == 0 then ""
    else if |parts| == 1 then parts[0]
    else parts[0] + sep + JoinWith(parts[1..], sep)
  }

  /** `String.prototype.split(c)`: the pieces between the occurrences of
      `c`, empty pieces included (so `"".split(c)` is `[""]`). */
  function Split(s: string, c: char): (r: seq<string>)
    ensures |r| >= 1
    decreases |s|
  {
    if |s| == 0 then [""]
    else
      var rest := Split(s[1..], c);
      if s[0] == c then [""] + rest else [[s[0]] + rest[0]] + rest[1..]
  }

  /** Prepending to the first part prepends to the joined text. */
  lemma JoinWithPrepend(x: string, parts: seq<string>, sep: string)
    requires |parts| >= 1
    ensures JoinWith([x + parts[0]] + parts[1..], sep) == x + JoinWith(parts, sep)
  {
    var q := [x + parts[0]] + parts[1..];
    assert q[1..] == parts[1..];
  }

  /** Joining the pieces of a split with the same character gives the text
      back, for every text. */
  lemma {:induction false} JoinWithSplit(s: string, c: char)
    ensures JoinWith(Split(s, c), [c]) == s
    decreases |s|
  {
    if |s| > 0 {
      var rest := Split(s[1..], c);
      JoinWithSplit(s[1..], c);
      if s[0] == c {
        var q := [""] + rest;
        assert q[1..] == rest;
        assert s == [c] + s[1..];
      } else {
        JoinWithPrepend([s[0]], rest, [c]);
        assert s == [s[0]] + s[1..];
      }
    }
  }

  /** Splitting text that starts with a piece free of `c` and then `c`. */
  lemma {:induction false} SplitPrefix(x: string, t: string, c: char)
    requires c !in x
    ensures Split(x + [c] + t, c) == [x] + Split(t, c)
    decreases |x|
  {
    if |x| == 0 {
      assert x + [c] + t == [c] + t;
      assert ([c] + t)[1..] == t;
    } else {
      SplitPrefix(x[1..], t, c);
      assert (x + [c] + t)[1..] == x[1..] + [c] + t;
      assert [x[0]] + x[1..] == x;
    }
  }

  /** A text free of `c` is a single piece. */
  lemma {:induction false} SplitWhole(x: string, c: char)
    requires c !in x
    ensures Split(x, c) == [x]
    decreases |x|
  {
    if |x| > 0 {
      SplitWhole(x[1..], c);
      assert [x[0]] + x[1..] == x;
    }
  }

  /** Splitting joined parts that hold no separator gives the parts back. */
  lemma {:induction false} SplitJoinWith(parts: seq<string>, c: char)
    requires |parts| >= 1
    requires forall i :: 0 <= i < |parts| ==> c !in parts[i]
    ensures Split(JoinWith(parts, [c]), c) == parts
    decreases |parts|
  {
    if |parts| == 1 {
      SplitWhole(parts[0], c);
    } else {
      SplitJoinWith(parts[1..], c);
      SplitPrefix(parts[0], JoinWith(parts[1..], [c]), c);
      assert [parts[0]] + parts[1..] == parts;
    }
  }

  /** A path below `dir`: both `${dir}/${name}` and `path.join(dir, name)` for
      the plain names this program uses (no normalisation is modelled). */
  function Slash(dir: string, name: string): (r: string)
    ensures |r| == |dir| + 1 + |name|
    ensures r[..|dir|] == dir && r[|dir|] == '/' && r[|dir| + 1..] == name
  {
    dir + "/" + name
  }

  /** A path is determined by its directory and name when the directory is fixed. */
  lemma SlashInjective(dir: string, a: string, b: string)
    requires Slash(dir, a) == Slash(dir, b)
    ensures a == b
  {
    assert a == Slash(dir, a)[|dir| + 1..];
  }
}

=== FILE: tile_names.dfy ===
/**
  Tile addressing by file name (gridify.js): the crop writes one file per
  tile from the pattern `tiles_%d.png`, `numFromTile` recovers the index as
  the first run of digits in a name, and the directory listing is sorted by
  that index.
 */
module TileNames {
  import opened Text
  import opened Util
  import Config

  /** The name format gridify.js hands to the crop (`tiles_%d.png`). */
  const GridifyTilePattern: string := "tiles_%d.png"

  /** The first `%d` in `pattern` becomes `text`; a pattern without `%d` is
      left as it is. */
  function Substitute(pattern: string, text: string): string
    decreases |pattern|
  {
    if |pattern| < 2 then pattern
    else if pattern[0] == '%' && pattern[1] == 'd' then text + pattern[2..]
    else [pattern[0]] + Substitute(pattern[1..], text)
  }

  /** The crop's `%d` substitution: the decimal text of `n` replaces the
      first `%d`. */
  function Instantiate(pattern: string, n: nat): string {
    Substitute(pattern, NatToString(n))
  }

  /** Name of the tile with index `n`. */
  function TileName(n: nat): string {
    Instantiate(GridifyTilePattern, n)
  }

  /** `%d` after a prefix free of `%` is the one that gets replaced. */
  lemma {:induction false} SubstituteAfter(prefix: string, suffix: string, text: string)
    requires forall i :: 0 <= i < |prefix| ==> prefix[i] != '%'
    ensures Substitute(prefix + "%d" + suffix, text) == prefix + text + suffix
    decreases |prefix|
  {
    var p := prefix + "%d" + suffix;
    if |prefix| == 0 {
      assert p == "%d" + suffix;
      assert p[0] == '%' && p[1] == 'd' && p[2..] == suffix;
    } else {
      var tail := prefix[1..];
      assert p[0] == prefix[0] != '%' && |p| >= 2;
      assert Substitute(p, text) == [p[0]] + Substitute(p[1..], text);
      assert p[1..] == tail + "%d" + suffix;
      SubstituteAfter(tail, suffix, text);
      assert prefix + text + suffix == [prefix[0]] + (tail + text + suffix);
    }
  }

  /** gridify.js and config.js use one pattern, and it spells `tiles_<n>.png`. */
  lemma TileNameSpelling(n: nat)
    ensures Config.TilePattern == GridifyTilePattern
    ensures TileName(n) == "tiles_" + NatToString(n) + ".png"
  {
    assert GridifyTilePattern == "tiles_" + "%d" + ".png";
    SubstituteAfter("tiles_", ".png", NatToString(n));
  }

  /** Skipping one more non-digit in front keeps the skipped part digit-free. */
  lemma SkipStep(s: string, r: string)
    requires |s| > 0 && !IsDigit(s[0])
    requires |r| <= |s| - 1 && r == s[1..][|s| - 1 - |r|..]
    requires NoDigits(s[1..][..|s| - 1 - |r|])
    ensures r == s[|s| - |r|..]
    ensures NoDigits(s[..|s| - |r|])
  {
    var k := |s| - |r|;
    forall i | 0 <= i < k
      ensures !IsDigit(s[..k][i])
    {
      if i > 0 {
        assert s[..k][i] == s[1..][..k - 1][i - 1];
      }
    }
  }

  /** Drop the leading characters that are not digits. */
  function SkipNonDigits(s: string): (r: string)
    ensures |r| <= |s| && r == s[|s| - |r|..]
    ensures NoDigits(s[..|s| - |r|])
    ensures |r| > 0 ==> IsDigit(r[0])
    decreases |s|
  {
    if |s| == 0 || IsDigit(s[0]) then
      assert s[..0] == [];
      s
    else
      var r := SkipNonDigits(s[1..]);
      SkipStep(s, r);
      r
  }

  /** The longest prefix of digits. */
  function TakeDigits(s: string): (r: string)
    ensures |r| <= |s| && r == s[..|r|]
    ensures AllDigits(r)
    ensures |r| < |s| ==> !IsDigit(s[|r|])
    decreases |s|
  {
    if |s| == 0 || !IsDigit(s[0]) then [] else [s[0]] + TakeDigits(s[1..])
  }

  /** `tileName.match(/\d+/)`: the first maximal run of digits, if any. */
  function DigitRun(s: string): (r: Option<string>)
    ensures r.None? <==> NoDigits(s)
    ensures r.Some? ==> |r.value| > 0 && AllDigits(r.value)
  {
    var t := SkipNonDigits(s);
    if |t| == 0 then
      assert s[..|s|] == s;
      None
    else
      Some(TakeDigits(t))
  }

  /** A digit-free prefix, then a run of digits ended by a non-digit (or the
      end): the run is what `DigitRun` finds. */
  lemma {:induction false} DigitRunOf(pre: string, digits: string, post: string)
    requires NoDigits(pre)
    requires |digits| > 0 && AllDigits(digits)
    requires |post| == 0 || !IsDigit(post[0])
    ensures DigitRun(pre + digits + post) == Some(digits)
    decreases |pre|
  {
    var s := pre + digits + post;
    if |pre| == 0 {
      assert s == digits + post;
      TakeDigitsOf(digits, post);
    } else {
      assert s[1..] == pre[1..] + digits + post;
      assert !IsDigit(s[0]);
      DigitRunOf(pre[1..], digits, post);
    }
  }

  lemma {:induction false} TakeDigitsOf(digits: string, post: string)
    requires AllDigits(digits)
    requires |post| == 0 || !IsDigit(post[0])
    ensures TakeDigits(digits + post) == digits
    decreases |digits|
  {
    if |digits| > 0 {
      assert (digits + post)[1..] == digits[1..] + post;
      TakeDigitsOf(digits[1..], post);
    } else {
      assert digits + post == post;
    }
  }

  /** `numFromTile`: `parseInt` of the first run of digits; `None` stands for
      the `NaN` that a name without digits yields. */
  function NumFromTile(name: string): (r: Option<nat>)
    ensures r.None? <==> NoDigits(name)
  {
    match DigitRun(name)
    case None => None
    case Some(d) => Some(ParseDigits(d))
  }

  /** The fixed parts of a tile name carry no digit next to the index. */
  lemma TileAffixes()
    ensures NoDigits("tiles_")
    ensures !IsDigit(".png"[0])
  {
  }

  /** `numFromTile` inverts the tile pattern. */
  lemma NumFromTileName(n: nat)
    ensures NumFromTile(TileName(n)) == Some(n)
  {
    var d := NatToString(n);
    TileNameSpelling(n);
    TileAffixes();
    DigitRunOf("tiles_", d, ".png");
    assert DigitRun(TileName(n)) == Some(d);
    ParseNatToString(n);
  }

  /** Different indices give different tile names. */
  lemma TileNameInjective(m: nat, n: nat)
    requires TileName(m) == TileName(n)
    ensures m == n
  {
    NumFromTileName(m);
    NumFromTileName(n);
  }

  // ---------------------------------------------------------------------------
  // The numeric sort of the listing:
  // `files.sort((a, b) => numFromTile(a) - numFromTile(b))`.
  // The sort is written for any key, `NumFromTile` being the one gridify.js uses.

  /** The comparator is negative: `a` has a smaller key than `b`. A `NaN`
      difference (a missing key) is never negative. */
  predicate Precedes<T>(key: T -> Option<nat>, a: T, b: T) {
    key(a).Some? && key(b).Some? && key(a).value < key(b).value
  }

  /** Every element carries a key (for tiles: a freshly cropped directory). */
  predicate AllKeyed<T>(key: T -> Option<nat>, xs: seq<T>) {
    forall i :: 0 <= i < |xs| ==> key(xs[i]).Some?
  }

  /** Ascending by key, taking every pair of positions. */
  predicate SortedBy<T>(key: T -> Option<nat>, xs: seq<T>)
    requires AllKeyed(key, xs)
  {
    forall i, j :: 0 <= i < j < |xs| ==> key(xs[i]).value <= key(xs[j]).value
  }

  /** Insert `x` before the first element that does not precede it. */
  function Insert<T>(key: T -> Option<nat>, x: T, sorted: seq<T>): (r: seq<T>)
    ensures multiset(r) == multiset(sorted) + multiset{x}
    ensures |r| == |sorted| + 1
    decreases |sorted|
  {
    if |sorted| == 0 || !Precedes(key, sorted[0], x) then [x] + sorted
    else
      assert sorted == [sorted[0]] + sorted[1..];
      [sorted[0]] + Insert(key, x, sorted[1..])
  }

  lemma TailKeyedSorted<T>(key: T -> Option<nat>, xs: seq<T>)
    requires |xs| > 0 && AllKeyed(key, xs) && SortedBy(key, xs)
    ensures AllKeyed(key, xs[1..]) && SortedBy(key, xs[1..])
  {
    assert forall i :: 0 <= i < |xs[1..]| ==> xs[1..][i] == xs[i + 1];
  }

  lemma ConsKeyedSorted<T>(key: T -> Option<nat>, x: T, xs: seq<T>)
    requires AllKeyed(key, xs) && SortedBy(key, xs)
    requires key(x).Some?
    requires |xs| > 0 ==> key(x).value <= key(xs[0]).value
    ensures AllKeyed(key, [x] + xs) && SortedBy(key, [x] + xs)
  {
    var r := [x] + xs;
    assert forall i :: 0 < i < |r| ==> r[i] == xs[i - 1];
  }

  lemma {:induction false} InsertSorted<T>(key: T -> Option<nat>, x: T, sorted: seq<T>)
    requires AllKeyed(key, sorted) && SortedBy(key, sorted)
    requires key(x).Some?
    ensures AllKeyed(key, Insert(key, x, sorted)) && SortedBy(key, Insert(key, x, sorted))
    ensures Insert(key, x, sorted)[0] == x || (|sorted| > 0 && Insert(key, x, sorted)[0] == sorted[0])
    decreases |sorted|
  {
    if |sorted| == 0 || !Precedes(key, sorted[0], x) {
      ConsKeyedSorted(key, x, sorted);
    } else {
      TailKeyedSorted(key, sorted);
      InsertSorted(key, x, sorted[1..]);
      var rest := Insert(key, x, sorted[1..]);
      ConsKeyedSorted(key, sorted[0], rest);
    }
  }

  /** Stable insertion sort under the comparator. */
  function SortBy<T>(key: T -> Option<nat>, xs: seq<T>): (r: seq<T>)
    ensures multiset(r) == multiset(xs)
    ensures |r| == |xs|
    decreases |xs|
  {
    if |xs| == 0 then []
    else
      assert xs == [xs[0]] + xs[1..];
      Insert(key, xs[0], SortBy(key, xs[1..]))
  }

  /** The result is ascending by key when every element has one. */
  lemma {:induction false} SortBySorted<T>(key: T -> Option<nat>, xs: seq<T>)
    requires AllKeyed(key, xs)
    ensures AllKeyed(key, SortBy(key, xs)) && SortedBy(key, SortBy(key, xs))
    decreases |xs|
  {
    if |xs| > 0 {
      assert AllKeyed(key, xs[1..]) by {
        assert forall i :: 0 <= i < |xs[1..]| ==> xs[1..][i] == xs[i + 1];
      }
      SortBySorted(key, xs[1..]);
      InsertSorted(key, xs[0], SortBy(key, xs[1..]));
    }
  }

  /** `SortBySorted` for any list: ascending whenever every element is keyed. */
  lemma SortByKeyedSorted<T>(key: T -> Option<nat>, xs: seq<T>)
    ensures AllKeyed(key, xs) ==> AllKeyed(key, SortBy(key, xs)) && SortedBy(key, SortBy(key, xs))
  {
    if AllKeyed(key, xs) {
      SortBySorted(key, xs);
    }
  }

  /** The sorted listing: a permutation of the listing, ascending by the
      index in each name when every name carries one. */
  function SortTiles(names: seq<string>): (r: seq<string>)
    ensures multiset(r) == multiset(names)
    ensures AllKeyed(NumFromTile, names) ==> AllKeyed(NumFromTile, r) && SortedBy(NumFromTile, r)
  {
    SortByKeyedSorted(NumFromTile, names);
    SortBy(NumFromTile, names)
  }

  /** In the sorted listing a tile with a smaller index comes first. */
  lemma SmallerIndexFirst(names: seq<string>, p: nat, q: nat)
    requires AllKeyed(NumFromTile, names)
    requires p < |SortTiles(names)| && q < |SortTiles(names)|
    requires NumFromTile(SortTiles(names)[p]).Some? && NumFromTile(SortTiles(names)[q]).Some?
    requires NumFromTile(SortTiles(names)[p]).value < NumFromTile(SortTiles(names)[q]).value
    ensures p < q
  {
  }

  /** The case the lexicographic order gets wrong: `tiles_2.png` precedes
      `tiles_10.png`. */
  lemma TwoBeforeTen(names: seq<string>, p: nat, q: nat)
    requires AllKeyed(NumFromTile, names)
    requires p < |SortTiles(names)| && q < |SortTiles(names)|
    requires SortTiles(names)[p] == TileName(2) && SortTiles(names)[q] == TileName(10)
    ensures p < q
  {
    NumFromTileName(2);
    NumFromTileName(10);
    SmallerIndexFirst(names, p, q);
  }

  // ---------------------------------------------------------------------------
  // A fresh crop: the listing holds exactly the names of tiles 0 .. n-1, in
  // whatever order the directory returns them.

  /** The names the crop writes for `n` tiles, in index order. */
  function CropNames(n: nat): (names: seq<string>)
    ensures |names| == n
    ensures forall i :: 0 <= i < n ==> names[i] == TileName(i)
  {
    seq(n, i requires 0 <= i < n => TileName(i))
  }

  ghost predicate Distinct<T>(xs: seq<T>) {
    forall i, j :: 0 <= i < j < |xs| ==> xs[i] != xs[j]
  }

  /** A sequence without repetitions holds each value at most once. */
  lemma {:induction false} DistinctCounts<T>(xs: seq<T>)
    requires Distinct(xs)
    ensures forall x :: multiset(xs)[x] <= 1
    decreases |xs|
  {
    if |xs| > 0 {
      var t := xs[1..];
      forall i, j | 0 <= i < j < |t|
        ensures t[i] != t[j]
      {
        assert t[i] == xs[i + 1] && t[j] == xs[j + 1];
      }
      DistinctCounts(t);
      forall k | 0 <= k < |t|
        ensures t[k] != xs[0]
      {
        assert t[k] == xs[k + 1];
      }
      assert xs == [xs[0]] + t;
      assert multiset(xs) == multiset{xs[0]} + multiset(t);
    }
  }

  /** Two equal entries count twice. */
  lemma Repeated<T>(xs: seq<T>, i: nat, j: nat)
    requires i < j < |xs|
    ensures xs[i] == xs[j] ==> multiset(xs)[xs[i]] >= 2
  {
    assert xs == xs[..j] + xs[j..];
    assert xs[..j][i] == xs[i];
    assert xs[j..][0] == xs[j];
    assert multiset(xs) == multiset(xs[..j]) + multiset(xs[j..]);
  }

  lemma CountsDistinct<T>(xs: seq<T>)
    requires forall x :: multiset(xs)[x] <= 1
    ensures Distinct(xs)
  {
    forall i, j | 0 <= i < j < |xs|
      ensures xs[i] != xs[j]
    {
      Repeated(xs, i, j);
    }
  }

  lemma {:induction false} AtLeastIndex(ks: seq<nat>, i: nat)
    requires forall a, b :: 0 <= a < b < |ks| ==> ks[a] < ks[b]
    requires i < |ks|
    ensures ks[i] >= i
    decreases i
  {
    if i > 0 {
      AtLeastIndex(ks, i - 1);
    }
  }

  lemma {:induction false} AtMostIndex(ks: seq<nat>, i: nat)
    requires forall a, b :: 0 <= a < b < |ks| ==> ks[a] < ks[b]
    requires forall a :: 0 <= a < |ks| ==> ks[a] < |ks|
    requires i < |ks|
    ensures ks[i] <= i
    decreases |ks| - i
  {
    if i + 1 < |ks| {
      AtMostIndex(ks, i + 1);
    }
  }

  /** `n` strictly ascending values below `n` are `0, 1, ..., n-1`. */
  lemma StrictKeysAreIndices(ks: seq<nat>)
    requires forall a, b :: 0 <= a < b < |ks| ==> ks[a] < ks[b]
    requires forall a :: 0 <= a < |ks| ==> ks[a] < |ks|
    ensures forall i :: 0 <= i < |ks| ==> ks[i] == i
  {
    forall i | 0 <= i < |ks|
      ensures ks[i] == i
    {
      AtLeastIndex(ks, i);
      AtMostIndex(ks, i);
    }
  }

  /** No tile name of a crop repeats. */
  lemma CropNamesOnce(n: nat)
    ensures forall x :: multiset(CropNames(n))[x] <= 1
  {
    var names := CropNames(n);
    forall i, j | 0 <= i < j < n
      ensures names[i] != names[j]
    {
      if names[i] == names[j] {
        TileNameInjective(i, j);
      }
    }
    DistinctCounts(names);
  }

  /** A name of the crop carries its index, which is below `n`. */
  lemma CropMember(x: string, n: nat)
    requires x in multiset(CropNames(n))
    ensures NumFromTile(x).Some? && NumFromTile(x).value < n
    ensures x == TileName(NumFromTile(x).value)
  {
    var j :| 0 <= j < n && CropNames(n)[j] == x;
    NumFromTileName(j);
  }

  /** `n` distinct entries, ascending by key, each determined by its key and
      each key below `n`, carry the keys `0 .. n-1` in order. */
  lemma SortedDistinctKeys<T>(key: T -> Option<nat>, name: nat -> T, r: seq<T>)
    requires Distinct(r)
    requires AllKeyed(key, r) && SortedBy(key, r)
    requires forall k :: 0 <= k < |r| ==> key(r[k]).value < |r|
    requires forall k :: 0 <= k < |r| ==> r[k] == name(key(r[k]).value)
    ensures forall k :: 0 <= k < |r| ==> r[k] == name(k)
  {
    var ks := seq(|r|, k requires 0 <= k < |r| => key(r[k]).value);
    forall a, b | 0 <= a < b < |r|
      ensures ks[a] < ks[b]
    {
      assert r[a] == name(ks[a]) && r[b] == name(ks[b]) && r[a] != r[b];
    }
    StrictKeysAreIndices(ks);
    forall k | 0 <= k < |r|
      ensures r[k] == name(k)
    {
      assert ks[k] == key(r[k]).value == k;
    }
  }

  /** A permutation of `names` (which hold `name(0) .. name(n-1)`, each once,
      each carrying its index as key) that ascends by key is `names` itself. */
  lemma SortedPermutationInOrder<T>(key: T -> Option<nat>, name: nat -> T, names: seq<T>, r: seq<T>)
    requires forall i :: 0 <= i < |names| ==> names[i] == name(i) && key(name(i)) == Some(i)
    requires forall x :: multiset(names)[x] <= 1
    requires multiset(r) == multiset(names)
    requires AllKeyed(key, r) && SortedBy(key, r)
    ensures r == names
  {
    assert |r| == |names| by {
      assert |multiset(r)| == |multiset(names)|;
    }
    CountsDistinct(r);
    forall k | 0 <= k < |r|
      ensures key(r[k]).value < |r|
      ensures r[k] == name(key(r[k]).value)
    {
      assert r[k] in multiset(names);
      var j :| 0 <= j < |names| && names[j] == r[k];
    }
    SortedDistinctKeys(key, name, r);
  }

  /** Whatever order the directory lists a fresh crop in, the numeric sort
      puts tile `i` at position `i`. */
  lemma FreshCropSortsInOrder(listing: seq<string>, n: nat)
    requires multiset(listing) == multiset(CropNames(n))
    ensures SortTiles(listing) == CropNames(n)
  {
    forall k | 0 <= k < |listing|
      ensures NumFromTile(listing[k]).Some?
    {
      CropMember(listing[k], n);
    }
    forall i | 0 <= i < n
      ensures NumFromTile(TileName(i)) == Some(i)
    {
      NumFromTileName(i);
    }
    CropNamesOnce(n);
    SortedPermutationInOrder(NumFromTile, TileName, CropNames(n), SortTiles(listing));
  }
}

=== FILE: util.dfy ===
/**
  The promise helpers of util.js, over abstract outcomes: a subprocess or a
  directory read is represented by what it reported (an error or not), and a
  promise by the `Outcome` it settles to.
 */
module Util {

  datatype Option<+T> = None | Some(value: T)

  /** How a promise settles: resolved with a value or rejected with an error. */
  datatype Outcome<+V, +E> = Ok(value: V) | Err(error: E)

  /** A run of a step sequence: how it settled, and the value each started
      step received, in the order the steps were started. */
  datatype Run<V, E> = Run(result: Outcome<V, E>, inputs: seq<V>)

  /** The contract of running `steps` one after another from `seed`: step
      `k + 1` starts only after step `k` resolved, and receives its value; the
      first rejection ends the run with that rejection; an empty sequence
      resolves with the seed. */
  ghost predicate Sequenced<V, E>(steps: seq<V -> Outcome<V, E>>, seed: V, r: Run<V, E>) {
    && |r.inputs| <= |steps|
    && (|r.inputs| > 0 ==> r.inputs[0] == seed)
    && (forall k :: 0 <= k < |r.inputs| - 1 ==> steps[k](r.inputs[k]) == Ok(r.inputs[k + 1]))
    && (r.result.Err? ==> |r.inputs| > 0 && steps[|r.inputs| - 1](r.inputs[|r.inputs| - 1]) == r.result)
    && (r.result.Ok? ==> |r.inputs| == |steps|)
    && (r.result.Ok? && |steps| == 0 ==> r.result == Ok(seed))
    && (r.result.Ok? && |steps| > 0 ==> steps[|steps| - 1](r.inputs[|steps| - 1]) == r.result)
  }

  /** Reference semantics: start the first step; continue with the rest only
      when it resolved, handing its value on. */
  function Sequence<V, E>(steps: seq<V -> Outcome<V, E>>, seed: V): (r: Run<V, E>)
    ensures Sequenced(steps, seed, r)
    decreases |steps|
  {
    if |steps| == 0 then Run(Ok(seed), [])
    else
      match steps[0](seed)
      case Err(e) => Run(Err(e), [seed])
      case Ok(v) =>
        var rest := Sequence(steps[1..], v);
        Run(rest.result, [seed] + rest.inputs)
  }

  /** `lastStep.then(startNextStep)`: a rejected promise skips the step. */
  function Then<V, E>(acc: Run<V, E>, step: V -> Outcome<V, E>): Run<V, E> {
    match acc.result
    case Err(_) => acc
    case Ok(v) => Run(step(v), acc.inputs + [v])
  }

  /** `steps.reduce(then, acc)`, left to right. */
  function Reduce<V, E>(steps: seq<V -> Outcome<V, E>>, acc: Run<V, E>): Run<V, E>
    decreases |steps|
  {
    if |steps| == 0 then acc else Reduce(steps[1..], Then(acc, steps[0]))
  }

  lemma {:induction false} ReduceFromErr<V, E>(steps: seq<V -> Outcome<V, E>>, e: E, pre: seq<V>)
    ensures Reduce(steps, Run(Err(e), pre)) == Run(Err(e), pre)
    decreases |steps|
  {
    if |steps| > 0 {
      ReduceFromErr(steps[1..], e, pre);
    }
  }

  lemma {:induction false} ReduceFromOk<V, E>(steps: seq<V -> Outcome<V, E>>, v: V, pre: seq<V>)
    ensures Reduce(steps, Run(Ok(v), pre))
         == Run(Sequence(steps, v).result, pre + Sequence(steps, v).inputs)
    decreases |steps|
  {
    if |steps| > 0 {
      match steps[0](v)
      case Err(e) =>
        ReduceFromErr(steps[1..], e, pre + [v]);
      case Ok(w) =>
        ReduceFromOk(steps[1..], w, pre + [v]);
        assert pre + [v] + Sequence(steps[1..], w).inputs == pre + ([v] + Sequence(steps[1..], w).inputs);
    }
  }

  /** `runInSequence`: the reduce over `Promise.resolve()` agrees with the
      reference semantics, so it keeps the `Sequenced` contract. */
  lemma ReduceIsSequence<V, E>(steps: seq<V -> Outcome<V, E>>, seed: V)
    ensures Reduce(steps, Run(Ok(seed), [])) == Sequence(steps, seed)
  {
    ReduceFromOk(steps, seed, []);
    assert [] + Sequence(steps, seed).inputs == Sequence(steps, seed).inputs;
  }

  /** `runInSequence(steps)`, started from the promise `Promise.resolve(seed)`. */
  function RunInSequence<V, E>(steps: seq<V -> Outcome<V, E>>, seed: V): (r: Run<V, E>)
    ensures Sequenced(steps, seed, r)
  {
    ReduceIsSequence(steps, seed);
    Reduce(steps, Run(Ok(seed), []))
  }

  /** One link of the chain: a step that is followed by another resolved. */
  lemma SequencedLink<V, E>(steps: seq<V -> Outcome<V, E>>, seed: V, r: Run<V, E>, k: nat)
    requires Sequenced(steps, seed, r)
    ensures k < |r.inputs| - 1 ==> steps[k](r.inputs[k]) == Ok(r.inputs[k + 1])
  {
  }

  /** The contract pins the run down: two runs that both keep it are equal. */
  lemma {:induction false} SequencedIsDeterministic<V, E>(steps: seq<V -> Outcome<V, E>>, seed: V, r: Run<V, E>)
    requires Sequenced(steps, seed, r)
    ensures r == Sequence(steps, seed)
    decreases |steps|
  {
    if |steps| > 0 {
      assert |r.inputs| > 0 && r.inputs[0] == seed;
      match steps[0](seed)
      case Err(e) =>
        SequencedLink(steps, seed, r, 0);
        assert |r.inputs| == 1;
        assert r.inputs == [seed];
        assert r.result == Err(e);
      case Ok(v) =>
        if |r.inputs| == 1 {
          assert r == Run(Ok(v), [seed]);
        } else {
          var tail := Run(r.result, r.inputs[1..]);
          forall k | 0 <= k < |tail.inputs| - 1
            ensures steps[1..][k](tail.inputs[k]) == Ok(tail.inputs[k + 1])
          {
            assert steps[k + 1](r.inputs[k + 1]) == Ok(r.inputs[k + 2]);
          }
          assert Sequenced(steps[1..], v, tail);
          SequencedIsDeterministic(steps[1..], v, tail);
          assert r.inputs == [seed] + tail.inputs;
        }
    }
  }

  /** A step that ignores the value it is handed, as every step of this
      program does. */
  type UnitStep<E> = (()) -> Outcome<(), E>

  /** The first rejecting step decides the run: the steps before it resolved,
      it rejected, and no later step starts. */
  lemma {:induction false} FirstRejectionEndsRun<E>(steps: seq<UnitStep<E>>, k: nat)
    requires k < |steps|
    requires forall j :: 0 <= j < k ==> steps[j](()).Ok?
    requires steps[k](()).Err?
    ensures RunInSequence(steps, ()).result == steps[k](())
    ensures |RunInSequence(steps, ()).inputs| == k + 1
    decreases k
  {
    ReduceIsSequence(steps, ());
    if k > 0 {
      assert steps[0](()).Ok?;
      assert steps[0](()).value == ();
      assert steps[1..][k - 1] == steps[k];
      FirstRejectionEndsRun(steps[1..], k - 1);
      ReduceIsSequence(steps[1..], ());
      assert Sequence(steps, ()).result == Sequence(steps[1..], ()).result;
    }
  }

  /** When every step resolves, every step starts and the run resolves. */
  lemma {:induction false} AllResolvedRunsAll<E>(steps: seq<UnitStep<E>>)
    requires forall j :: 0 <= j < |steps| ==> steps[j](()).Ok?
    ensures RunInSequence(steps, ()).result.Ok?
    ensures |RunInSequence(steps, ()).inputs| == |steps|
    decreases |steps|
  {
    ReduceIsSequence(steps, ());
    if |steps| > 0 {
      assert steps[0](()).Ok?;
      assert steps[0](()).value == ();
      AllResolvedRunsAll(steps[1..]);
      ReduceIsSequence(steps[1..], ());
      assert Sequence(steps, ()).result == Sequence(steps[1..], ()).result;
    }
  }

  /** A line the helpers write to the console. */
  datatype Line<E> = Echo(command: string) | Warning(error: E)

  /** What running a command gave: its settled promise and the console lines. */
  datatype Exec<E> = Exec(outcome: Outcome<(), E>, printed: seq<Line<E>>)

  /** `execCommand(command, quiet)`: echoes the command unless `quiet`; the
      subprocess reported `error` (or nothing) to the callback. */
  function ExecCommand<E>(command: string, quiet: bool, error: Option<E>): (r: Exec<E>)
    ensures r.outcome.Ok? <==> error.None?
    ensures r.outcome.Err? ==> r.outcome.error == error.value
    ensures quiet <==> Echo(command) !in r.printed
  {
    Exec(if error.Some? then Err(error.value) else Ok(()), if quiet then [] else [Echo(command)])
  }

  /** `execRegardless(command)` as written: it takes only the command and calls
      `execCommand(command)`, so the command is always echoed; a rejection is
      caught and logged, and the promise resolves. */
  function ExecRegardless<E>(command: string, error: Option<E>): (r: Exec<E>)
    ensures r.outcome == Ok(())
    ensures Echo(command) in r.printed
    ensures error.Some? ==> Warning(error.value) in r.printed
    ensures error.None? ==> forall l :: l in r.printed ==> l.Echo?
  {
    var e := ExecCommand(command, false, error);
    match e.outcome
    case Ok(_) => e
    case Err(err) => Exec(Ok(()), e.printed + [Warning(err)])
  }

  /** The call site passes `true` for quietness, yet the command is echoed. */
  lemma ExecRegardlessIgnoresQuiet<E>(command: string, error: Option<E>)
    ensures Echo(command) in ExecRegardless(command, error).printed
    ensures Echo(command) !in ExecCommand(command, true, error).printed
  {
  }

  /** The evidently intended best-effort helper: the quiet flag is forwarded,
      failures are still swallowed into a warning. */
  function ExecRegardlessQuiet<E>(command: string, quiet: bool, error: Option<E>): (r: Exec<E>)
    ensures r.outcome == Ok(())
    ensures quiet <==> Echo(command) !in r.printed
    ensures error.Some? ==> Warning(error.value) in r.printed
    ensures error.None? ==> forall l :: l in r.printed ==> l.Echo?
  {
    var e := ExecCommand(command, quiet, error);
    match e.outcome
    case Ok(_) => e
    case Err(err) => Exec(Ok(()), e.printed + [Warning(err)])
  }

  /** The correction changes only what is echoed: both helpers settle the
      same way and log the same warning. */
  lemma ExecRegardlessSameOutcome<E>(command: string, quiet: bool, error: Option<E>)
    ensures ExecRegardless(command, error).outcome == ExecRegardlessQuiet(command, quiet, error).outcome
    ensures !quiet ==> ExecRegardless(command, error) == ExecRegardlessQuiet(command, quiet, error)
    ensures error.Some? ==> Warning(error.value) in ExecRegardlessQuiet(command, quiet, error).printed
  {
  }

  /** `ls(dir)`: `fs.readdir` reported `error` (or nothing) and `list`. */
  function Ls<E>(error: Option<E>, list: seq<string>): (r: Outcome<seq<string>, E>)
    ensures error.None? <==> r == Ok(list)
    ensures error.Some? ==> r == Err(error.value)
  {
    match error
    case Some(e) => Err(e)
    case None => Ok(list)
  }
}
